=== FILE: README.md ===
# ProBuilder parametric shapes: edit controller and shape state, in Dafny

This project models two pieces of sequential bookkeeping around ProBuilder's
parametric shapes (cubes, planes, sprites and the other primitive variants).

- **`ShapeComponent`** (`shape_component.dfy`, module `Shapes`) is the runtime
  state of a shape. It holds the shape's signed size, its rotation and its
  oriented box (`shapeBox`). It also holds the cached `m_Width`/`m_Height`/`m_Length`
  fields, the pivot policy and the `edited` flag. The model covers the
  operations that change this state: `editionBounds`, `UpdateProperties`,
  `UpdateComponent`, both `Rebuild` overloads, `SetShape`,
  `RotateInsideBounds` and the `pivotLocation` setter. Each operation is a
  pure function that returns the new component together with the calls it
  made into the mesh code, in order (`MeshOp`).
- **The Edit Shape tool** (`edit_shape_tool.dfy`, module `EditShapeTool`) is
  the per-frame controller. It decides which handles exist, and it runs the
  orientation-arrow state machine (arm on pointer-down, abort on drifting
  off during a drag, commit on pointer-up). It also does the size-drag
  arithmetic with its snap remainder. The tool's static fields and
  `GUIUtility.hotControl` form one `Session` value, which every step takes
  and returns.
- `size_snap.dfy` (module `SizeSnap`) holds the snap-remainder step of a
  size drag, both as the code writes it and corrected (see Findings).
- `edit_shape_properties.dfy` (module `EditShapeProperties`) holds the
  properties that span a whole pass over the faces or a whole
  `DoEditingGUI` call.
- `geometry.dfy` (module `Geometry`) holds real-valued `Vector3`, `Bounds`
  and `Quaternion` and the `Mathf` helpers used.

The host editor's services are parameters. They are gathered in `Host` and
`Frame` values of function type:

- face geometry (`EditorShapeUtility.UpdateFaces`) and the pointer-in-face test;
- `Handles.Slider`;
- `ProBuilderSnapping.Snap`;
- vector normalisation and length;
- `Transform.TransformVector`;
- the rotation an arrow stands for;
- `ShapeComponent.UpdateBounds`.

## Model

| member | source | states |
|---|---|---|
| Shapes.EditionBounds | Runtime/Shapes/ShapeComponent.cs:70-81 | centre is the shape box centre; size is the shape's size, with y forced to 0 exactly when abs(shapeBox.size.y) < epsilon |
| Shapes.EditionBoundsDegenerate | Runtime/Shapes/ShapeComponent.cs:72-79 | all three edition-bounds sizes exceed epsilon iff the shape box is not flat and all three shape sizes exceed epsilon |
| Shapes.UpdateProperties | Runtime/Shapes/ShapeComponent.cs:99-104 | width/height/length become size x/y/z; nothing else changes |
| Shapes.PropertiesSizeRoundTrip | Runtime/Shapes/ShapeComponent.cs:101-110 | the size-to-fields copy and the fields-to-size read are mutually inverse |
| Shapes.Rebuild | Runtime/Shapes/ShapeComponent.cs:123-141 | null or hidden object: no mesh call, `edited` kept, fields refreshed from size; visible: mesh regenerated from size and rotation, then fitted to the shape box made absolute (shape-box centre, size Abs(shapeBox.size)), then re-pivoted; `edited` cleared; fields equal size in every case |
| Shapes.RebuildIdempotent | Runtime/Shapes/ShapeComponent.cs:123-141 | a second rebuild with nothing changed gives the same state and the same mesh calls |
| Shapes.RebuildKeepsShape | Runtime/Shapes/ShapeComponent.cs:123-141 | rebuilding changes neither the shape, the pivot nor the transform |
| Shapes.FitBounds | Runtime/Shapes/ShapeComponent.cs:134-136 | the fitted box keeps the shape-box centre; its size is non-negative with the same magnitudes |
| Shapes.FitBoundsSignInvariant | Runtime/Shapes/ShapeComponent.cs:134-136 | flipping the sign of any shape-box axis does not change the box the mesh is fitted to |
| Shapes.UpdateComponent | Runtime/Shapes/ShapeComponent.cs:106-112 | resets the pivot first, reads size back from the fields, keeps rotation and shape box; a hidden object makes no other mesh call and keeps `edited`; a visible one is rebuilt: the mesh is regenerated from the read-back size and the rotation, fitted to the absolute shape box, re-pivoted with the stored pivot, and `edited` is cleared |
| Shapes.UpdateComponentAfterRebuild | Runtime/Shapes/ShapeComponent.cs:99-112 | after any rebuild, UpdateComponent reads back exactly the size written: same state and same mesh calls |
| Shapes.RebuildWith | Runtime/Shapes/ShapeComponent.cs:114-121 | size and fields become bounds.size, the transform moves to bounds.center with the given rotation; rotation, shape box, variant and pivot are kept; a hidden object makes no mesh call and keeps `edited`; a visible one regenerates the mesh from bounds.size and the rotation, fits it to the absolute shape box, re-pivots with the stored pivot and clears `edited` |
| Shapes.RebuildWithReadBack | Runtime/Shapes/ShapeComponent.cs:106-121 | after Rebuild(bounds, rotation), UpdateComponent reads back bounds.size and changes no state |
| Shapes.SetPivotLocation | Runtime/Shapes/ShapeComponent.cs:41-49 | stores the new pivot and rebuilds; a visible rebuild re-pivots with the new value |
| Shapes.SetPivotLocationSame | Runtime/Shapes/ShapeComponent.cs:41-49 | setting the pivot it already has is exactly a rebuild |
| Shapes.SetPivotLocationThenRebuild | Runtime/Shapes/ShapeComponent.cs:41-49 | a rebuild after the setter changes nothing and repeats the same mesh calls |
| Shapes.SetPivotLocationLastWins | Runtime/Shapes/ShapeComponent.cs:41-49 | setting the pivot twice equals setting it once to the later value, state and mesh calls alike |
| Shapes.AdjustedBox | Runtime/Shapes/ShapeComponent.cs:146-170 | Plane/Sprite: y of centre and size zeroed, x and z kept; solid shape, first-vertex pivot, box size.y = 0 and size.y != 0: centre.y raised by size.y/2 and box size.y := size.y; otherwise the box is unchanged |
| Shapes.SetShape | Runtime/Shapes/ShapeComponent.cs:143-173 | installs the new shape with the adjusted box, resets the pivot, rebuilds: the fields take the new shape's size and the transform is kept; a visible object regenerates the mesh from the new size and rotation, fits it to the adjusted box made absolute, re-pivots and clears `edited`; a hidden one does nothing more and keeps `edited`; a flat variant ends with zero box height and centre y |
| Shapes.SolidFromFlatSitsOnFootprint | Runtime/Shapes/ShapeComponent.cs:157-170 | flat then solid (first-vertex pivot, positive height): the re-expanded box's bottom face lies at the flat box's height, spans the shape's height, x and z unchanged |
| Shapes.RotateInsideBounds | Runtime/Shapes/ShapeComponent.cs:179-184 | rotation becomes delta * old rotation; size, fields, shape box, variant, pivot and transform unchanged; the pivot is reset first; a hidden object makes no other mesh call and keeps `edited`; a visible one regenerates the mesh from the size and the new rotation, fits it to the absolute shape box, re-pivots with the stored pivot and clears `edited` |
| Shapes.RotateByIdentity | Runtime/Shapes/ShapeComponent.cs:179-184 | rotating by the identity leaves the shape unchanged |
| Shapes.RotateTwice | Runtime/Shapes/ShapeComponent.cs:179-184 | two rotations stack, the later delta applied on the left |
| SizeSnap.Modifier | Editor/EditorCore/EditShapeTool.cs:200-202 | the modifier is 2 exactly when alt is held, otherwise 1 |
| SizeSnap.ModifiedIsScaled | Editor/EditorCore/EditShapeTool.cs:213-217 | the modified delta is the delta scaled by the modifier |
| SizeSnap.SnapCarryAsWritten | Editor/EditorCore/EditShapeTool.cs:213-217 | the code as written: the offset is Snap(modifier * (delta + leftover)); offset plus new leftover equals modifier * (delta + leftover), whatever Snap returns |
| SizeSnap.SnapCarry | Editor/EditorCore/EditShapeTool.cs:213-217 | corrected step: the offset is Snap(modifier * delta + leftover); offset plus new leftover equals modifier * delta + leftover, whatever Snap returns |
| SizeSnap.AsWrittenAgreesWithoutAlt | Editor/EditorCore/EditShapeTool.cs:213-217 | without alt the code as written and the corrected step agree |
| SizeSnap.AsWrittenDoublesLeftover | Editor/EditorCore/EditShapeTool.cs:213-217 | with alt held and a nonzero carried leftover, the code as written accounts for that leftover twice |
| SizeSnap.SnapOffLeavesNoLeftover | Editor/EditorCore/EditShapeTool.cs:216-217 | with snapping off (zero increment), if Snap is the identity there, nothing is carried |
| SizeSnap.RunConserves | Editor/EditorCore/EditShapeTool.cs:213-217 | corrected step only (the code as written breaks it, see Findings): over any run of frames, the applied offsets plus the final leftover equal the requested deltas plus the initial leftover |
| SizeSnap.AsWrittenTwoFramesWithAlt | Editor/EditorCore/EditShapeTool.cs:213-217 | two alt frames as written apply and carry the requested deltas plus the first frame's leftover |
| SizeSnap.AsWrittenOverApplies | Editor/EditorCore/EditShapeTool.cs:213-217 | concrete case: two alt frames of 0.3 in which Snap rounds 0.6 to 0.5 apply and carry 0.1 more than requested |
| SizeSnap.FirstAltFrameLeftover | Editor/EditorCore/EditShapeTool.cs:213-217 | the first alt frame of that case, starting with nothing carried, leaves 0.1 over when Snap rounds 0.6 to 0.5 |
| EditShapeTool.IndexOf | Editor/EditorCore/EditShapeTool.cs:319-327 | the arrow index used for the rotation is the first position of the armed id among the orientation ids |
| EditShapeTool.OrientationHandle | Editor/EditorCore/EditShapeTool.cs:293-407 | pointer-down with button 0 over an arrow id sets current id and hot control to it and consumes the event, otherwise nothing changes; pointer-up over an arrow ends with hot 0 and current id -1, and rotates iff the armed id is the nearest; a drag off the armed id aborts with hot 0 and id -1 and never rotates; a repaint records the nearest control iff it is one of the arrows drawn for the face (one per face point), otherwise -1 |
| EditShapeTool.ShownArrows | Editor/EditorCore/EditShapeTool.cs:355-373 | the arrows a repaint draws are the first ids, one per face point |
| EditShapeTool.OrientationFaces | Editor/EditorCore/EditShapeTool.cs:273-289 | only visible faces under the pointer run the arrows; every new commit is a rotation of such a face, made while the nearest control is an arrow, by the rotation of that arrow (its first position among the arrow ids); with no new commit the component is unchanged; the component afterwards is the starting one with the new rotations applied in order through RotateInsideBounds |
| EditShapeTool.OrientationNext | Editor/EditorCore/EditShapeTool.cs:275-287 | one face of the orientation loop commits at most one rotation, only for a visible face under the pointer while an arrow is nearest, by that arrow's rotation; without a commit the component is unchanged, with one it is RotateInsideBounds of it |
| EditShapeTool.OrientationHandles | Editor/EditorCore/EditShapeTool.cs:268-291 | while a non-arrow control is hot, nothing changes |
| EditShapeTool.FaceSizeHandle | Editor/EditorCore/EditShapeTool.cs:232-266 | skips the face when an arrow is nearest but the pointer is off the face; a moved slider makes the new size delta the target along the normal and the last delta the baseline (the previous size delta, or the face centre along the normal at drag start) scaled by the dot product of the normalised baseline and new delta; an unmoved slider with nothing hot resets the last delta |
| EditShapeTool.DragBaseline | Editor/EditorCore/EditShapeTool.cs:251-254 | the baseline is the previous size delta mid-drag, the face centre along the normal when no drag is under way |
| EditShapeTool.AxisDelta | Editor/EditorCore/EditShapeTool.cs:204-213 | the object's scale cancels: the delta is the drag amount on the face's axis, signed by the shape's size signs |
| EditShapeTool.ResizeFrame | Editor/EditorCore/EditShapeTool.cs:198-224 | the frame's offset is Snap(modifier * (axis delta + old leftover)), and offset plus new leftover equals modifier * (axis delta + old leftover), as the code computes it; the snapping increment is used only with shift; the committed size is the old size plus the offset; with alt held the centre stays at the current centre, without alt it moves from there by half the offset's length, signed by the drag amount, along the transformed face normal oriented by the scale's signs |
| EditShapeTool.SizeFaces | Editor/EditorCore/EditShapeTool.cs:180-225 | the size loop keeps the faces, the armed arrow id and the event, and keeps earlier commits as a prefix; when no face commits, the shape and the carried snap remainder are unchanged |
| EditShapeTool.SizeNext | Editor/EditorCore/EditShapeTool.cs:182-224 | one face of the size loop commits a resize for that face iff it runs (not an invalid flat face, not shadowed by another face's arrow, slider moved); a face that does not run leaves the shape as it was and changes the session in the hot control and last delta only; the shape afterwards is the old one with the new resize applied through UpdateBounds |
| EditShapeTool.SizeFacesSound | Editor/EditorCore/EditShapeTool.cs:180-225 | every resize the loop commits is for a face from the loop's range that runs |
| EditShapeTool.SizeFacesComplete | Editor/EditorCore/EditShapeTool.cs:180-225 | every face from the loop's range that runs gets a resize commit |
| EditShapeTool.SizeFacesIdle | Editor/EditorCore/EditShapeTool.cs:180-225 | a loop in which no face runs commits nothing |
| EditShapeTool.SizeFacesApplyResizes | Editor/EditorCore/EditShapeTool.cs:198-223 | after the loop the shape is the starting shape with the loop's resizes applied in order through UpdateBounds |
| EditShapeTool.SizeFacesSkipIdle | Editor/EditorCore/EditShapeTool.cs:180-225 | faces that do not run hand the rest of the loop the same pass up to the hot control and the last delta |
| EditShapeTool.SizeFacesMoveAt | Editor/EditorCore/EditShapeTool.cs:198-223 | when the face is the last one that runs, the loop from it commits exactly that face's ResizeFrame commit, leaves its remainder carried, and ends with UpdateBounds of the commit's centre and size |
| EditShapeTool.SizeFacesSingleMove | Editor/EditorCore/EditShapeTool.cs:198-223 | when exactly one face runs, the loop commits exactly the resize its slider and ResizeFrame compute from the pass's shape and event, on a session that differs only in hot control and last delta; the carried remainder is that frame's leftover and the shape becomes UpdateBounds of the commit's centre and size |
| EditShapeTool.SizeHandles | Editor/EditorCore/EditShapeTool.cs:173-225 | over the session's faces, a face commits a resize iff it is not an invalid face of a Plane or Sprite, not shadowed by another face's arrow, and its slider moved; with no resize the shape and the carried remainder are unchanged; the shape afterwards is the starting shape with the resizes applied in order through UpdateBounds |
| EditShapeTool.DoEditingGUI | Editor/EditorCore/EditShapeTool.cs:146-171 | a null component changes nothing and commits nothing; otherwise faces are recomputed from the edition bounds, the component left is the given one with every commit applied in order (rotations through RotateInsideBounds, resizes through UpdateBounds), and with a degenerate edition bound only resizes happen and the armed id is unchanged; which faces resize is stated by `EditShapeProperties.EditingGUIResizesEveryMovedFace` |
| EditShapeProperties.InertEventChangesNothing | Editor/EditorCore/EditShapeTool.cs:301-310 | once the event is consumed, the remaining faces change nothing |
| EditShapeProperties.MouseDownArms | Editor/EditorCore/EditShapeTool.cs:303-310 | over a pass, pointer-down arms the nearest arrow iff button 0 is over an arrow and some face takes part; otherwise the state is unchanged; nothing is committed |
| EditShapeProperties.MouseUpCommits | Editor/EditorCore/EditShapeTool.cs:311-339 | over a pass, pointer-up over an arrow ends unarmed with hot 0 and commits exactly one rotation iff the armed id is the nearest: the rotation of the nearest arrow, for an eligible face, recorded as the session's shape rotation and applied with RotateInsideBounds; otherwise the commits and the component are unchanged |
| EditShapeProperties.MouseDragAborts | Editor/EditorCore/EditShapeTool.cs:398-403 | over a pass, a drag off the armed arrow aborts (hot 0, id -1) iff some face takes part; it never commits |
| EditShapeProperties.OrientationFacesKeepArm | Editor/EditorCore/EditShapeTool.cs:303-403 | exclusivity: "the armed id is an arrow id holding the hot control, or nothing is armed" is preserved by every transition |
| EditShapeProperties.OrientationHandlesKeepArm | Editor/EditorCore/EditShapeTool.cs:268-291 | the guarded orientation pass preserves the exclusivity invariant |
| EditShapeProperties.EditingGUIArmsOnlyWhenSolid | Editor/EditorCore/EditShapeTool.cs:165-167 | on an arming pointer-down, the arrow is armed iff all three abs(editionBounds.size) components exceed epsilon |
| EditShapeProperties.ForeignHotBlocksOrientation | Editor/EditorCore/EditShapeTool.cs:270-271 | while a foreign control is hot, a whole call neither arms, releases nor rotates |
| EditShapeProperties.FlatBoxHasNoOrientationHandles | Editor/EditorCore/EditShapeTool.cs:165-167 | a flat shape box never gets orientation handles: only resizes, armed id unchanged |
| EditShapeProperties.FlatShapeResizesValidFacesOnly | Editor/EditorCore/EditShapeTool.cs:179-184 | in a whole call on a Plane or Sprite, every resize comes from a valid face |
| EditShapeProperties.EditingGUIResizesEveryMovedFace | Editor/EditorCore/EditShapeTool.cs:160-169 | in a whole call, over the faces computed from the edition bounds, a face commits a resize iff it is not skipped, not shadowed by another face's arrow, and its slider moved; whatever the orientation handles did first |
| EditShapeProperties.OrientedPassFacts | Editor/EditorCore/EditShapeTool.cs:160-169 | the orientation pass keeps the recomputed faces and the shape variant and commits only rotations, and the call's commits are the size pass's commits from there |
| EditShapeProperties.SizePassResizesEveryMovedFace | Editor/EditorCore/EditShapeTool.cs:173-184 | after a pass that committed only rotations, the resizes of the size pass are exactly the moved, unskipped, unshadowed faces |
| EditShapeProperties.FlatSizePassValidOnly | Editor/EditorCore/EditShapeTool.cs:179-184 | a size pass on a Plane or Sprite after only rotations resizes only valid faces of the session |
| EditShapeProperties.SizeHandlesSingleMove | Editor/EditorCore/EditShapeTool.cs:198-223 | a size pass in which exactly one face runs commits exactly that face's resize, carries that frame's remainder, and leaves UpdateBounds of the committed centre and size |
| EditShapeProperties.EditingGUIAppliesCommits | Editor/EditorCore/EditShapeTool.cs:146-171 | the component a call leaves is the given one when nothing is committed, RotateInsideBounds of it after a single rotation, and UpdateBounds of it to the committed centre and size after a single resize |
| EditShapeProperties.DragAmountIsIncrement | Editor/EditorCore/EditShapeTool.cs:210-211 | in a steady-direction drag, the amount a frame hands to the resize is the slider's progress since the previous frame, or since the face centre at drag start |
| EditShapeProperties.DragStepsTelescope | Editor/EditorCore/EditShapeTool.cs:251-257 | two successive moved frames hand amounts that add up to the slider's whole progress over both frames |
| EditShapeProperties.ResizeFrameAgreesWithCorrectedWithoutAlt | Editor/EditorCore/EditShapeTool.cs:213-217 | without alt the controller's carry is exactly the corrected snap step's |
| EditShapeProperties.UnsnappedDragGrowsSize | Editor/EditorCore/EditShapeTool.cs:210-223 | without snapping or carried leftover, a drag of amount a grows a non-negative size by exactly a along the face axis and carries nothing |
| EditShapeProperties.UnsnappedAxisDragOffset | Editor/EditorCore/EditShapeTool.cs:208-216 | on a face whose normal is a unit axis, an unsnapped drag with nothing carried offsets the size by the drag amount along that axis |
| EditShapeProperties.UnsnappedDragMovesCentre | Editor/EditorCore/EditShapeTool.cs:208-223 | an unsnapped, non-alt drag of amount a >= 0 on a unit-axis face under a positive scale commits the size grown by a along the axis and the centre moved by a/2 along the normal from the current centre, so the opposite face stays put |

## Left out

- Handle drawing, colours, cursor rectangles, the overlay window, and the tool
  callbacks (`OnToolGUI` with its `edited` filter, `OnOverlayGUI`,
  `OnEnable`/`OnDisable`, `ActiveToolChanging`, `OnActivated`,
  `OnWillBeDeactivated`, `OnSelectModeChanged`). These are editor UI plumbing.
- The `Layout` event branch (lines 341-350) and all nearest-control picking are
  left out; the host does the picking, and the nearest control is a frame input.
- The rotation math at lines 324-333 and the arrow geometry at lines 355-371
  are left out. They use cross products, signed angles and `AngleAxis` over
  floating point. The rotation an arrow commits is the host's
  `arrowRotation(face, index)`.
- `s_CurrentAngle` and its `% 360` accumulation (lines 334, 352-353) are left
  out. This is display-only floating-point state.
- `s_UpdateDrawShapeTool` and `DrawShapeTool.s_LastShapeRotation` (lines 151,
  282-284) are left out. They belong to another tool.
- Undo recording (`UndoUtility.RecordComponents`) and `ProBuilderEditor.Refresh`
  are left out. They are host side effects.
- `ShapeComponent.UpdateBounds` and `ShapeComponent.shapeBox` are not part of
  this model's `ShapeComponent.cs`: `EditShapeTool.cs` reads
  `shapeComponent.shapeBox` (lines 155 and 221) and calls
  `shapeComponent.UpdateBounds` (line 416), but the `ShapeComponent.cs` modelled
  here declares neither. The model reads the box as `c.shape.shapeBox`, the box
  the shape stores, and `ApplyProperties` becomes a `Resize` commit plus the
  host's `updateBounds`.
- The mesh getter, which adds a mesh component lazily, is left out.
- `RebuildMesh`, `FitToSize`, `UpdatePivot` and `ResetPivot` are recorded as
  calls with their arguments. What they do to the mesh, the transform or the
  shape box is not modelled.
- Floating point is not modelled: all values are exact reals. `Mathf.Epsilon`
  is 1.401298e-45. The quaternion product is the exact Hamilton product.
- EditShapeTool.DoEditingGUI: requires every lossy-scale component to be
  non-zero, because the size branch divides by them (line 208) without a
  guard. The same precondition sits on `SizeFaces`, `SizeHandles`,
  `ResizeFrame` and `AxisDelta`.
- EditShapeTool.OrientationHandle: a face with more than four points makes
  the repaint loop (lines 357-373) index past the four entries of
  `s_ArrowsLines` and throw; the model draws the first four arrows and does
  not model the exception.
- Snap conservation is proved for runs of the snap step (`SizeSnap.RunConserves`).
  It is not proved across successive whole `DoEditingGUI` calls.
- No reset of the snap remainder is modelled, because the code has none.
  `s_SizeLeftOver` is written only at line 217 and is never reset. Only
  `s_LastDelta` is reset (line 263), so the remainder carries from one drag
  into the next. The model does the same.
- `probuilder2.0/Assets/ProBuilderUpgradeKit/Scripts/pb_SerializableObject.cs`
  is left out. It is a legacy binary-serialization container built on
  .NET serialization types.

## Findings

| source | as written | input that shows it | evidently intended | confidence | as-written member | corrected member |
|---|---|---|---|---|---|---|
| Editor/EditorCore/EditShapeTool.cs:214-217 | the carried `s_SizeLeftOver` is added to the raw delta, and the sum is then multiplied by the modifier. The remainder is already in multiplied units, so with alt held (modifier 2) it is doubled again | alt held, two frames each dragging 0.3 along Y, with a Snap that rounds 0.6 to 0.5: 1.3 is applied and carried where 1.2 was dragged | `sizeOffset = Snap(modifier * delta + s_SizeLeftOver)` and `s_SizeLeftOver = modifier * delta + s_SizeLeftOver - sizeOffset`, so that no drag input is lost or duplicated | medium, not executed | SizeSnap.SnapCarryAsWritten, SizeSnap.AsWrittenOverApplies | SizeSnap.SnapCarry, SizeSnap.RunConserves |

The controller (`EditShapeTool.ResizeFrame`) follows the code as written.
`EditShapeProperties.ResizeFrameAgreesWithCorrectedWithoutAlt` shows that it
carries exactly what the corrected step would whenever alt is not held.

=== FILE: edit_shape_properties.dfy ===
/**
 Properties of the Edit Shape controller that span a whole pass over the
 faces or a whole `DoEditingGUI` call: the orientation-arrow state machine
 seen from the pass (arm, commit, abort), the hot-control exclusivity it
 keeps, and the gating of the handle families.
 */
module EditShapeProperties {
  import opened Geometry
  import opened Shapes
  import opened SizeSnap
  import opened EditShapeTool

  /** An event the orientation arrows ignore, such as one already consumed. */
  predicate Inert(evt: Event) {
    evt.kind !in {MouseDown, MouseUp, MouseDrag, Repaint}
  }

  /** Once the event is consumed (or was never one the arrows handle), the rest of the pass changes nothing. */
  lemma {:induction false} InertEventChangesNothing(p: Pass, frame: Frame, host: Host, faces: seq<FaceData>, k: nat)
    requires k <= |faces| && Inert(p.evt)
    ensures OrientationFaces(p, frame, host, faces, k) == p
    decreases |faces| - k
  {
    if k < |faces| {
      OrientationFacesStep(p, frame, host, faces, k);
      InertEventChangesNothing(p, frame, host, faces, k + 1);
    }
  }

  /**
   Pointer-down: when button 0 is over an orientation arrow and some face
   takes part, the pass arms that arrow (current id and hot control both
   become it); otherwise the state is unchanged. Nothing is committed.
   */
  lemma {:induction false} MouseDownArms(p: Pass, frame: Frame, host: Host, faces: seq<FaceData>, k: nat)
    requires k <= |faces| && p.evt.kind == MouseDown
    ensures var r := OrientationFaces(p, frame, host, faces, k);
      && r.commits == p.commits
      && r.component == p.component
      && (OverArrow(p.evt, frame.nearestControl, frame.orientationIds) && SomeEligible(faces, k, host) ==>
            r.session == p.session.(currentId := frame.nearestControl, hotControl := frame.nearestControl))
      && (!(OverArrow(p.evt, frame.nearestControl, frame.orientationIds) && SomeEligible(faces, k, host)) ==>
            r.session == p.session)
    decreases |faces| - k
  {
    if k < |faces| {
      OrientationFacesStep(p, frame, host, faces, k);
      if Eligible(faces[k], host) {
        var next := OrientationNext(p, frame, host, faces, k);
        if OverArrow(p.evt, frame.nearestControl, frame.orientationIds) {
          InertEventChangesNothing(next, frame, host, faces, k + 1);
        } else {
          MouseDownArms(next, frame, host, faces, k + 1);
        }
      } else {
        MouseDownArms(p, frame, host, faces, k + 1);
        assert SomeEligible(faces, k + 1, host) ==> SomeEligible(faces, k, host);
        assert SomeEligible(faces, k, host) ==> SomeEligible(faces, k + 1, host) by {
          if SomeEligible(faces, k, host) {
            var j :| k <= j < |faces| && Eligible(faces[j], host);
            assert j != k;
          }
        }
      }
    }
  }

  /** The rotation the arrow under the pointer stands for on a face. */
  function ArrowRotation(face: FaceData, frame: Frame, host: Host): Quat
    requires frame.nearestControl in frame.orientationIds
  {
    host.arrowRotation(face, IndexOf(frame.orientationIds, frame.nearestControl))
  }

  /**
   Pointer-up over an orientation arrow with some face taking part: the hot
   control is released and nothing stays armed; exactly one rotation is
   committed when the armed arrow is the one under the pointer, none
   otherwise. Without an arrow under button 0, or without an eligible face,
   nothing changes.
   */
  lemma {:induction false} MouseUpCommits(p: Pass, frame: Frame, host: Host, faces: seq<FaceData>, k: nat)
    requires k <= |faces| && p.evt.kind == MouseUp
    ensures var r := OrientationFaces(p, frame, host, faces, k);
      && (OverArrow(p.evt, frame.nearestControl, frame.orientationIds) && SomeEligible(faces, k, host) ==>
            && r.session.hotControl == NoControl && r.session.currentId == NoId
            && |r.commits| == |p.commits| + (if p.session.currentId == frame.nearestControl then 1 else 0))
      && (OverArrow(p.evt, frame.nearestControl, frame.orientationIds) && SomeEligible(faces, k, host)
          && p.session.currentId == frame.nearestControl ==>
            exists j :: k <= j < |faces| && Eligible(faces[j], host)
              && r.commits == p.commits + [Rotate(j, ArrowRotation(faces[j], frame, host))]
              && r.session.shapeRotation == ArrowRotation(faces[j], frame, host)
              && r.component == RotateInsideBounds(p.component, ArrowRotation(faces[j], frame, host)).component)
      && (OverArrow(p.evt, frame.nearestControl, frame.orientationIds) && SomeEligible(faces, k, host)
          && p.session.currentId != frame.nearestControl ==>
            r.commits == p.commits && r.component == p.component)
      && (!(OverArrow(p.evt, frame.nearestControl, frame.orientationIds) && SomeEligible(faces, k, host)) ==>
            r == p)
    decreases |faces| - k
  {
    if k < |faces| {
      OrientationFacesStep(p, frame, host, faces, k);
      if Eligible(faces[k], host) {
        var h := OrientationHandle(p.session, p.evt, frame.nearestControl, frame.orientationIds, faces[k], host);
        if OverArrow(p.evt, frame.nearestControl, frame.orientationIds) {
          var next := OrientationNext(p, frame, host, faces, k);
          InertEventChangesNothing(next, frame, host, faces, k + 1);
          assert OrientationFaces(p, frame, host, faces, k) == next;
          if h.hasRotated {
            assert h.session.shapeRotation == ArrowRotation(faces[k], frame, host);
          }
        } else {
          MouseUpCommits(p, frame, host, faces, k + 1);
        }
      } else {
        MouseUpCommits(p, frame, host, faces, k + 1);
        assert SomeEligible(faces, k, host) ==> SomeEligible(faces, k + 1, host) by {
          if SomeEligible(faces, k, host) {
            var j :| k <= j < |faces| && Eligible(faces[j], host);
            assert j != k;
          }
        }
      }
    }
  }

  /**
   Drag: when an arrow is armed and the pointer has left it, the pass aborts
   the gesture (hot control released, nothing armed) as soon as some face
   takes part; otherwise the state is unchanged. A drag never commits.
   */
  lemma {:induction false} MouseDragAborts(p: Pass, frame: Frame, host: Host, faces: seq<FaceData>, k: nat)
    requires k <= |faces| && p.evt.kind == MouseDrag
    ensures var r := OrientationFaces(p, frame, host, faces, k);
      var drifted := p.session.currentId in frame.orientationIds && frame.nearestControl != p.session.currentId;
      && r.commits == p.commits
      && r.evt == p.evt
      && (drifted && SomeEligible(faces, k, host) ==>
            r.session == p.session.(hotControl := NoControl, currentId := NoId))
      && (!(drifted && SomeEligible(faces, k, host)) ==> r.session == p.session)
    decreases |faces| - k
  {
    if k < |faces| {
      OrientationFacesStep(p, frame, host, faces, k);
      if Eligible(faces[k], host) {
        MouseDragAborts(OrientationNext(p, frame, host, faces, k), frame, host, faces, k + 1);
      } else {
        MouseDragAborts(p, frame, host, faces, k + 1);
        assert SomeEligible(faces, k, host) ==> SomeEligible(faces, k + 1, host) by {
          if SomeEligible(faces, k, host) {
            var j :| k <= j < |faces| && Eligible(faces[j], host);
            assert j != k;
          }
        }
      }
    }
  }

  /**
   Exclusivity: a pass over the orientation arrows keeps "armed id is one of
   the arrows and holds the hot control", so at most one arrow is ever
   active.
   */
  lemma {:induction false} OrientationFacesKeepArm(p: Pass, frame: Frame, host: Host, faces: seq<FaceData>, k: nat)
    requires k <= |faces|
    requires ArmConsistent(p.session, frame.orientationIds)
    ensures ArmConsistent(OrientationFaces(p, frame, host, faces, k).session, frame.orientationIds)
    decreases |faces| - k
  {
    if k < |faces| {
      OrientationFacesStep(p, frame, host, faces, k);
      if Eligible(faces[k], host) {
        var next := OrientationNext(p, frame, host, faces, k);
        OrientationFacesKeepArm(next, frame, host, faces, k + 1);
      } else {
        OrientationFacesKeepArm(p, frame, host, faces, k + 1);
      }
    }
  }

  /** `DoOrientationHandlesGUI` keeps the exclusivity invariant. */
  lemma OrientationHandlesKeepArm(p: Pass, frame: Frame, host: Host)
    requires ArmConsistent(p.session, frame.orientationIds)
    ensures ArmConsistent(OrientationHandles(p, frame, host).session, frame.orientationIds)
  {
    if !ForeignHot(p.session, frame.orientationIds) {
      OrientationFacesKeepArm(p, frame, host, p.session.faces, 0);
    }
  }

  /** The faces `DoEditingGUI` computes for a component. */
  function FacesFor(c: ShapeComponent, frame: Frame, host: Host): seq<FaceData> {
    host.updateFaces(EditionBounds(c.shape), frame.lossyScale)
  }

  /**
   Orientation gating in `DoEditingGUI` on a pointer-down over an arrow with
   nothing foreign hot and some face under the pointer: the arrow is armed
   if and only if all three edition-bounds sizes exceed epsilon.
   */
  lemma EditingGUIArmsOnlyWhenSolid(c: ShapeComponent, s: Session, frame: Frame, host: Host)
    requires NoZeroComponent(frame.lossyScale)
    requires frame.evt.kind == MouseDown && OverArrow(frame.evt, frame.nearestControl, frame.orientationIds)
    requires !ForeignHot(s, frame.orientationIds)
    requires SomeEligible(FacesFor(c, frame, host), 0, host)
    requires s.currentId != frame.nearestControl
    ensures var r := DoEditingGUI(Some(c), s, frame, host);
      r.session.currentId == frame.nearestControl <==> AllAboveEpsilon(EditionBounds(c.shape).size)
  {
    var faces := FacesFor(c, frame, host);
    var start := Pass(s.(faces := faces), frame.evt, c, []);
    if AllAboveEpsilon(EditionBounds(c.shape).size) {
      MouseDownArms(start, frame, host, faces, 0);
    }
  }

  /** While a control other than the arrows is hot, `DoEditingGUI` neither arms, releases nor rotates. */
  lemma ForeignHotBlocksOrientation(c: ShapeComponent, s: Session, frame: Frame, host: Host)
    requires NoZeroComponent(frame.lossyScale)
    requires ForeignHot(s, frame.orientationIds)
    ensures var r := DoEditingGUI(Some(c), s, frame, host);
      && r.session.currentId == s.currentId
      && forall i :: 0 <= i < |r.commits| ==> r.commits[i].Resize?
  {
  }

  /**
   A flat shape box (|shapeBox.size.y| below epsilon) never gets orientation
   handles: the armed id does not change and only resizes are committed.
   */
  lemma FlatBoxHasNoOrientationHandles(c: ShapeComponent, s: Session, frame: Frame, host: Host)
    requires NoZeroComponent(frame.lossyScale)
    requires AbsReal(c.shape.shapeBox.size.y) < Epsilon
    ensures var r := DoEditingGUI(Some(c), s, frame, host);
      && r.session.currentId == s.currentId
      && forall i :: 0 <= i < |r.commits| ==> r.commits[i].Resize?
  {
    EditionBoundsDegenerate(c.shape);
  }

  /**
   On a Plane or Sprite every resize `DoEditingGUI` commits comes from a
   valid face of the freshly computed faces.
   */
  lemma FlatShapeResizesValidFacesOnly(c: ShapeComponent, s: Session, frame: Frame, host: Host)
    requires NoZeroComponent(frame.lossyScale)
    requires IsFlatKind(c.shape.kind)
    ensures var r := DoEditingGUI(Some(c), s, frame, host);
      forall i :: 0 <= i < |r.commits| && r.commits[i].Resize? ==>
        r.commits[i].face < |FacesFor(c, frame, host)| && FacesFor(c, frame, host)[r.commits[i].face].isValid
  {
    OrientedPassFacts(c, s, frame, host);
    FlatSizePassValidOnly(OrientedPass(c, s, frame, host), frame, host);
  }

  /** The size pass of a flat shape after any number of rotations resizes valid faces only. */
  lemma FlatSizePassValidOnly(o: Pass, frame: Frame, host: Host)
    requires NoZeroComponent(frame.lossyScale)
    requires IsFlatKind(o.component.shape.kind)
    requires forall i :: 0 <= i < |o.commits| ==> o.commits[i].Rotate?
    ensures var r := SizeHandles(o, frame, host);
      forall i :: 0 <= i < |r.commits| && r.commits[i].Resize? ==>
        r.commits[i].face < |o.session.faces| && o.session.faces[r.commits[i].face].isValid
  {
    var r := SizeHandles(o, frame, host);
    forall i | 0 <= i < |r.commits| && r.commits[i].Resize?
      ensures r.commits[i].face < |o.session.faces| && o.session.faces[r.commits[i].face].isValid
    {
      assert |o.commits| <= i;
    }
  }

  /** Rotations committed by the orientation pass keep the shape's variant. */
  lemma OrientationComponentKind(p: Pass, frame: Frame, host: Host)
    ensures OrientationHandles(p, frame, host).component.shape.kind == p.component.shape.kind
  {
    if !ForeignHot(p.session, frame.orientationIds) {
      OrientationFacesKind(p, frame, host, p.session.faces, 0);
    }
  }

  lemma {:induction false} OrientationFacesKind(p: Pass, frame: Frame, host: Host, faces: seq<FaceData>, k: nat)
    requires k <= |faces|
    ensures OrientationFaces(p, frame, host, faces, k).component.shape.kind == p.component.shape.kind
    decreases |faces| - k
  {
    if k < |faces| {
      OrientationFacesStep(p, frame, host, faces, k);
      if Eligible(faces[k], host) {
        var next := OrientationNext(p, frame, host, faces, k);
        OrientationFacesKind(next, frame, host, faces, k + 1);
      } else {
        OrientationFacesKind(p, frame, host, faces, k + 1);
      }
    }
  }

  /**
   Without snapping (shift released), with a snapping routine that is the
   identity on a zero increment and nothing carried, a size drag of amount
   `a` on a face of a shape with non-negative size grows the size by exactly
   `a` along the face's axis and carries nothing.
   */
  lemma UnsnappedDragGrowsSize(c: ShapeComponent, s: Session, face: FaceData, index: nat, evt: Event,
                               frame: Frame, host: Host)
    requires NoZeroComponent(frame.lossyScale)
    requires s.lastDelta.Some? && s.sizeLeftOver == Zero
    requires !evt.shift && !evt.alt
    requires forall v :: host.snap(v, Zero) == v
    requires NonNegative(c.shape.size)
    ensures var r := ResizeFrame(c, s, face, index, evt, frame, host);
      var a := ComponentSum(Sub(s.sizeDelta, s.lastDelta.value));
      && r.commit.size == Add(c.shape.size, Times(a, Abs(face.normal)))
      && r.session.sizeLeftOver == Zero
  {
    var a := ComponentSum(Sub(s.sizeDelta, s.lastDelta.value));
    var axis := Scale(Times(a, Abs(face.normal)), Sign(c.shape.size));
    assert Sign(c.shape.size) == Vec3(1.0, 1.0, 1.0);
    assert axis == Times(a, Abs(face.normal));
    AddZero(Modified(false, axis));
  }

  /**
   The drag amount a moved size handle hands to the resize: this frame's
   position minus the stored last delta, summed.
   */
  function DragAmount(s: Session): real
    requires s.lastDelta.Some?
  {
    ComponentSum(Sub(s.sizeDelta, s.lastDelta.value))
  }

  /**
   While the slider keeps moving in the same direction (the normalised
   baseline and the new position agree, dot product 1), the amount of a
   frame is exactly the slider's progress since the previous frame, or since
   the face centre when the drag starts.
   */
  lemma DragAmountIsIncrement(s: Session, face: FaceData, index: nat, frame: Frame, host: Host)
    requires !ArrowOfOtherFace(face, frame, host) && frame.slider(index).moved.Some?
    requires Dot(host.normalized(DragBaseline(s, face)),
                 host.normalized(Scale(frame.slider(index).moved.value, face.normal))) == 1.0
    ensures var r := FaceSizeHandle(s, face, index, frame, host);
      && r.moved && r.session.lastDelta.Some?
      && (s.lastDelta.Some? ==> DragAmount(r.session) == ComponentSum(Sub(r.session.sizeDelta, s.sizeDelta)))
      && (s.lastDelta.None? ==>
            DragAmount(r.session) == ComponentSum(Sub(r.session.sizeDelta, Scale(face.centerPosition, face.normal))))
  {
    var r := FaceSizeHandle(s, face, index, frame, host);
    var b := DragBaseline(s, face);
    assert r.session.lastDelta == Some(Times(1.0, b));
    assert Times(1.0, b) == b;
  }

  /**
   Two successive moved frames of one drag in a steady direction hand the
   resize amounts that add up to the slider's whole progress over both
   frames: nothing is counted twice and nothing is lost between frames.
   */
  lemma DragStepsTelescope(s: Session, face: FaceData, index: nat, f1: Frame, f2: Frame, host: Host)
    requires s.lastDelta.Some?
    requires !ArrowOfOtherFace(face, f1, host) && f1.slider(index).moved.Some?
    requires !ArrowOfOtherFace(face, f2, host) && f2.slider(index).moved.Some?
    requires Dot(host.normalized(s.sizeDelta),
                 host.normalized(Scale(f1.slider(index).moved.value, face.normal))) == 1.0
    requires Dot(host.normalized(Scale(f1.slider(index).moved.value, face.normal)),
                 host.normalized(Scale(f2.slider(index).moved.value, face.normal))) == 1.0
    ensures var r1 := FaceSizeHandle(s, face, index, f1, host);
      var r2 := FaceSizeHandle(r1.session, face, index, f2, host);
      && r1.session.lastDelta.Some? && r2.session.lastDelta.Some?
      && DragAmount(r1.session) + DragAmount(r2.session) == ComponentSum(Sub(r2.session.sizeDelta, s.sizeDelta))
  {
    DragAmountIsIncrement(s, face, index, f1, host);
    var r1 := FaceSizeHandle(s, face, index, f1, host);
    DragAmountIsIncrement(r1.session, face, index, f2, host);
  }

  /** Without alt the controller's frame carries exactly what the corrected snap step would. */
  lemma ResizeFrameAgreesWithCorrectedWithoutAlt(c: ShapeComponent, s: Session, face: FaceData, index: nat,
                                                 evt: Event, frame: Frame, host: Host)
    requires NoZeroComponent(frame.lossyScale)
    requires s.lastDelta.Some? && !evt.alt
    ensures var amount := ComponentSum(Sub(s.sizeDelta, s.lastDelta.value));
      var axis := Scale(Times(amount, Abs(face.normal)), Sign(c.shape.size));
      ResizeFrame(c, s, face, index, evt, frame, host).carry
        == SnapCarry(host.snap, s.sizeLeftOver, axis, false, if evt.shift then frame.incrementalSnap else Zero)
  {
    var amount := ComponentSum(Sub(s.sizeDelta, s.lastDelta.value));
    var axis := Scale(Times(amount, Abs(face.normal)), Sign(c.shape.size));
    AsWrittenAgreesWithoutAlt(host.snap, s.sizeLeftOver, axis, if evt.shift then frame.incrementalSnap else Zero);
  }

  /**
   The size handles run whatever the orientation handles did: in a whole
   `DoEditingGUI` call, every face of the freshly computed faces that is not
   skipped, whose slider moved and that is not shadowed by another face's
   arrow commits a resize, and every resize comes from such a face.
   */
  lemma EditingGUIResizesEveryMovedFace(c: ShapeComponent, s: Session, frame: Frame, host: Host)
    requires NoZeroComponent(frame.lossyScale)
    ensures var r := DoEditingGUI(Some(c), s, frame, host);
      var faces := FacesFor(c, frame, host);
      && (forall j :: 0 <= j < |faces| && SizeRuns(faces, IsFlatKind(c.shape.kind), j, frame, host) ==>
            exists i :: 0 <= i < |r.commits| && r.commits[i].Resize? && r.commits[i].face == j)
      && (forall i :: 0 <= i < |r.commits| && r.commits[i].Resize? ==>
            r.commits[i].face < |faces| && SizeRuns(faces, IsFlatKind(c.shape.kind), r.commits[i].face, frame, host))
  {
    OrientedPassFacts(c, s, frame, host);
    var o := OrientedPass(c, s, frame, host);
    SizePassResizesEveryMovedFace(o, frame, host);
  }

  /**
   A size pass in which exactly one face `j` runs commits that face's resize
   and nothing else: the commit and the carried remainder come from its
   slider and one `ResizeFrame`, and the shape becomes the host's
   `UpdateBounds` of the commit. The face sees the pass's session up to the
   hot control and the last delta.
   */
  lemma SizeHandlesSingleMove(p: Pass, frame: Frame, host: Host, j: nat)
    requires NoZeroComponent(frame.lossyScale)
    requires j < |p.session.faces|
    requires SizeRuns(p.session.faces, IsFlatKind(p.component.shape.kind), j, frame, host)
    requires forall m :: 0 <= m < |p.session.faces| && m != j ==>
      !SizeRuns(p.session.faces, IsFlatKind(p.component.shape.kind), m, frame, host)
    ensures exists ss: Session ::
      && ss.(hotControl := p.session.hotControl, lastDelta := p.session.lastDelta) == p.session
      && SingleResize(p.(session := ss), SizeHandles(p, frame, host), p.session.faces[j], j, frame, host)
  {
    SizeFacesSingleMove(p, IsFlatKind(p.component.shape.kind), frame, host, p.session.faces, 0, j);
  }

  /**
   The component `DoEditingGUI` leaves selected: the same one when nothing
   was committed, the one `RotateInsideBounds` returns after a single
   rotation, and the host's `UpdateBounds` of the new bounds after a single
   resize.
   */
  lemma EditingGUIAppliesCommits(c: ShapeComponent, s: Session, frame: Frame, host: Host)
    requires NoZeroComponent(frame.lossyScale)
    ensures var r := DoEditingGUI(Some(c), s, frame, host);
      && (r.commits == [] ==> r.target == Some(c))
      && (|r.commits| == 1 && r.commits[0].Rotate? ==>
            r.target == Some(RotateInsideBounds(c, r.commits[0].delta).component))
      && (|r.commits| == 1 && r.commits[0].Resize? ==>
            r.target == Some(host.updateBounds(c, Bounds(r.commits[0].center, r.commits[0].size))))
  {
    var r := DoEditingGUI(Some(c), s, frame, host);
    if |r.commits| == 1 {
      var x := r.commits[0];
      assert r.commits == [x];
      assert ApplyCommits(c, [x], host) == ApplyCommits(ApplyCommit(c, x, host), [], host);
    }
  }

  /** The pass the size handles start from: the orientation pass when the edition bounds are solid. */
  function OrientedPass(c: ShapeComponent, s: Session, frame: Frame, host: Host): Pass {
    var start := Pass(s.(faces := FacesFor(c, frame, host)), frame.evt, c, []);
    if AllAboveEpsilon(EditionBounds(c.shape).size) then OrientationHandles(start, frame, host) else start
  }

  /** What the size pass of `DoEditingGUI` starts from: the fresh faces, the same variant, only rotations so far. */
  lemma OrientedPassFacts(c: ShapeComponent, s: Session, frame: Frame, host: Host)
    requires NoZeroComponent(frame.lossyScale)
    ensures var o := OrientedPass(c, s, frame, host);
      && o.session.faces == FacesFor(c, frame, host)
      && o.component.shape.kind == c.shape.kind
      && (forall i :: 0 <= i < |o.commits| ==> o.commits[i].Rotate?)
      && DoEditingGUI(Some(c), s, frame, host).commits == SizeHandles(o, frame, host).commits
  {
    var start := Pass(s.(faces := FacesFor(c, frame, host)), frame.evt, c, []);
    if AllAboveEpsilon(EditionBounds(c.shape).size) {
      OrientationComponentKind(start, frame, host);
    }
  }

  /** The size pass after any number of rotations: each moved, unskipped face resizes, and only those. */
  lemma SizePassResizesEveryMovedFace(o: Pass, frame: Frame, host: Host)
    requires NoZeroComponent(frame.lossyScale)
    requires forall i :: 0 <= i < |o.commits| ==> o.commits[i].Rotate?
    ensures var r := SizeHandles(o, frame, host);
      var flat := IsFlatKind(o.component.shape.kind);
      && (forall j :: 0 <= j < |o.session.faces| && SizeRuns(o.session.faces, flat, j, frame, host) ==>
            exists i :: 0 <= i < |r.commits| && r.commits[i].Resize? && r.commits[i].face == j)
      && (forall i :: 0 <= i < |r.commits| && r.commits[i].Resize? ==>
            r.commits[i].face < |o.session.faces| && SizeRuns(o.session.faces, flat, r.commits[i].face, frame, host))
  {
    var r := SizeHandles(o, frame, host);
    var flat := IsFlatKind(o.component.shape.kind);
    forall j | 0 <= j < |o.session.faces| && SizeRuns(o.session.faces, flat, j, frame, host)
      ensures exists i :: 0 <= i < |r.commits| && r.commits[i].Resize? && r.commits[i].face == j
    {
      var i :| |o.commits| <= i < |r.commits| && r.commits[i].face == j;
      assert r.commits[i].Resize?;
    }
    forall i | 0 <= i < |r.commits| && r.commits[i].Resize?
      ensures r.commits[i].face < |o.session.faces| && SizeRuns(o.session.faces, flat, r.commits[i].face, frame, host)
    {
      assert |o.commits| <= i;
    }
  }

  /**
   The centre moves with the dragged face: without alt, snapping or carried
   remainder, on a shape of non-negative size under a positive scale, a drag
   of amount `a >= 0` on a face whose normal is a unit axis (with the
   transform and the length acting as the identity and the absolute value on
   that axis) commits the size grown by `a` along the axis and the centre
   moved by `a / 2` along the normal: the opposite face stays where it was.
   */
  lemma UnsnappedDragMovesCentre(c: ShapeComponent, s: Session, face: FaceData, index: nat, evt: Event,
                                 frame: Frame, host: Host)
    requires frame.lossyScale.x > 0.0 && frame.lossyScale.y > 0.0 && frame.lossyScale.z > 0.0
    requires s.lastDelta.Some? && s.sizeLeftOver == Zero
    requires !evt.shift && !evt.alt
    requires forall v :: host.snap(v, Zero) == v
    requires NonNegative(c.shape.size)
    requires UnitAxis(face.normal)
    requires host.transformVector(face.normal) == face.normal
    requires forall t :: t >= 0.0 ==> host.magnitude(Times(t, face.normal)) == t
    requires DragAmount(s) >= 0.0
    ensures var r := ResizeFrame(c, s, face, index, evt, frame, host);
      && r.commit.size == Add(c.shape.size, Times(DragAmount(s), face.normal))
      && r.commit.center == Add(CurrentCenter(c, frame, host), Times(DragAmount(s) / 2.0, face.normal))
  {
    UnsnappedAxisDragOffset(c, s, face, index, evt, frame, host);
    ResizeFrameCentreWithoutAlt(c, s, face, index, evt, frame, host);
    var a := DragAmount(s);
    var r := ResizeFrame(c, s, face, index, evt, frame, host);
    assert host.magnitude(Times(a, face.normal)) == a;
    CentreOfUnsnappedDrag(r.commit.center, CurrentCenter(c, frame, host), a, host.magnitude(r.carry.offset),
                          host.transformVector(face.normal), face.normal, frame.lossyScale);
  }

  /** The centre formula of a non-alt resize, for a drag of `a >= 0` along a unit axis under a positive scale. */
  lemma CentreOfUnsnappedDrag(center: Vec3, current: Vec3, a: real, mag: real,
                              worldNormal: Vec3, n: Vec3, scale: Vec3)
    requires center == Add(current, FaceShift(a, mag, worldNormal, scale))
    requires a >= 0.0 && mag == a && worldNormal == n && UnitAxis(n)
    requires scale.x > 0.0 && scale.y > 0.0 && scale.z > 0.0
    ensures center == Add(current, Times(a / 2.0, n))
  {
    CentreShift(a, n, mag, scale);
  }

  /** The non-alt centre of `ResizeFrame`, with the drag amount named. */
  lemma ResizeFrameCentreWithoutAlt(c: ShapeComponent, s: Session, face: FaceData, index: nat, evt: Event,
                                    frame: Frame, host: Host)
    requires NoZeroComponent(frame.lossyScale)
    requires s.lastDelta.Some? && !evt.alt
    ensures var r := ResizeFrame(c, s, face, index, evt, frame, host);
      r.commit.center == Add(CurrentCenter(c, frame, host),
                             FaceShift(DragAmount(s), host.magnitude(r.carry.offset),
                                       host.transformVector(face.normal), frame.lossyScale))
  {
  }

  /**
   Without snapping or remainder, a drag of amount `a` on a unit-axis face
   offsets the size by `a` along that axis.
   */
  lemma UnsnappedAxisDragOffset(c: ShapeComponent, s: Session, face: FaceData, index: nat, evt: Event,
                                frame: Frame, host: Host)
    requires NoZeroComponent(frame.lossyScale)
    requires s.lastDelta.Some? && s.sizeLeftOver == Zero
    requires !evt.shift && !evt.alt
    requires forall v :: host.snap(v, Zero) == v
    requires NonNegative(c.shape.size)
    requires UnitAxis(face.normal)
    ensures ResizeFrame(c, s, face, index, evt, frame, host).carry.offset == Times(DragAmount(s), face.normal)
  {
    UnsnappedDragGrowsSize(c, s, face, index, evt, frame, host);
    UnitAxisAbs(face.normal);
  }

  /** A face normal along one positive coordinate axis. */
  predicate UnitAxis(n: Vec3) {
    n == Vec3(1.0, 0.0, 0.0) || n == Vec3(0.0, 1.0, 0.0) || n == Vec3(0.0, 0.0, 1.0)
  }

  lemma UnitAxisAbs(n: Vec3)
    requires UnitAxis(n)
    ensures Abs(n) == n
  {
  }

  /**
   The non-alt centre shift of a drag of length `a >= 0` along a unit axis
   under a positive scale is `a / 2` along the axis.
   */
  lemma CentreShift(a: real, n: Vec3, mag: real, scale: Vec3)
    requires a >= 0.0 && mag == a && UnitAxis(n)
    requires scale.x > 0.0 && scale.y > 0.0 && scale.z > 0.0
    ensures Scale(Times(SignReal(a) * (mag / 2.0), n), Sign(scale)) == Times(a / 2.0, n)
  {
    assert SignReal(a) == 1.0;
    assert Sign(scale) == Vec3(1.0, 1.0, 1.0);
  }
}

=== FILE: edit_shape_tool.dfy ===
/**
 The per-frame interaction controller of the Edit Shape tool
 (`EditShapeTool.DoEditingGUI` and the handle functions it calls).

 The process-wide static fields of the tool (`s_Faces`, `s_CurrentId`,
 `s_LastDelta`, `s_SizeDelta`, `s_SizeLeftOver`, `s_CurrentArrowHovered`,
 `s_ShapeRotation`) and `GUIUtility.hotControl` form one `Session` value that
 every step takes and returns. What the host editor computes (face geometry,
 pointer hit tests, the slider widget, snapping, vector normalisation and
 length, the transform, the rotation an arrow stands for, and
 `ShapeComponent.UpdateBounds`) is passed in through `Host` and `Frame`.
 Every step is a pure function of its inputs; a step's commits (`Resize`,
 `Rotate`) are what the editor hands to undo recording and the shape.
 */
module EditShapeTool {
  import opened Geometry
  import opened Shapes
  import opened SizeSnap

  datatype EventType = MouseDown | MouseUp | MouseDrag | Layout | Repaint | Used | OtherEvent

  /** The current GUI event: its type, mouse button and the alt and shift modifiers. */
  datatype Event = Event(kind: EventType, button: int, alt: bool, shift: bool)

  /** `Event.Use()`: handlers that run later in the same pass see a consumed event. */
  function Use(e: Event): (u: Event)
    ensures u.kind == Used && u.(kind := e.kind) == e
  {
    e.(kind := Used)
  }

  /** One of the six faces of the edition box, as computed by the host's face utility. */
  datatype FaceData = FaceData(points: seq<Vec3>, centerPosition: Vec3, normal: Vec3, isVisible: bool, isValid: bool)

  /** `GUIUtility.hotControl` when no control is hot. */
  const NoControl: int := 0

  /** `s_CurrentId` when no orientation arrow is armed. */
  const NoId: int := -1

  /** The tool's static state and the GUI's hot control. `lastDelta == None` is `Vector3.negativeInfinity`. */
  datatype Session = Session(
    faces: seq<FaceData>,
    currentId: int,
    hotControl: int,
    lastDelta: Option<Vec3>,
    sizeDelta: Vec3,
    sizeLeftOver: Vec3,
    arrowHovered: int,
    shapeRotation: Quat)

  /** What `Handles.Slider` did this event: the new target position if it moved, and the hot control after it. */
  datatype SliderResult = SliderResult(moved: Option<Vec3>, hotControl: int)

  /** Services of the host editor whose code is outside this model. */
  datatype Host = Host(
    updateFaces: (Bounds, Vec3) -> seq<FaceData>,
    pointerIsInFace: FaceData -> bool,
    snap: (Vec3, Vec3) -> Vec3,
    normalized: Vec3 -> Vec3,
    magnitude: Vec3 -> real,
    transformVector: Vec3 -> Vec3,
    arrowRotation: (FaceData, nat) -> Quat,
    updateBounds: (ShapeComponent, Bounds) -> ShapeComponent)

  /**
   The inputs of one GUI pass: the event, the nearest control, the four
   orientation control ids handed out this pass, the slider outcome per face
   index, the object's lossy scale, and the incremental snap.
   */
  datatype Frame = Frame(
    evt: Event,
    nearestControl: int,
    orientationIds: seq<int>,
    slider: nat -> SliderResult,
    lossyScale: Vec3,
    incrementalSnap: Vec3)

  /** A committed change: a resize through `ApplyProperties`, or a rotation through `RotateInsideBounds`. */
  datatype Commit =
    | Resize(face: nat, center: Vec3, size: Vec3)
    | Rotate(face: nat, delta: Quat)

  /** The state threaded through the handle passes. */
  datatype Pass = Pass(session: Session, evt: Event, component: ShapeComponent, commits: seq<Commit>)

  /**
   What a commit does to the shape: a rotation goes through
   `RotateInsideBounds`, a resize through `UpdateBounds`.
   */
  function ApplyCommit(c: ShapeComponent, commit: Commit, host: Host): ShapeComponent {
    match commit
    case Rotate(_, delta) => RotateInsideBounds(c, delta).component
    case Resize(_, center, size) => host.updateBounds(c, Bounds(center, size))
  }

  /** The shape after applying the commits in order. */
  function ApplyCommits(c: ShapeComponent, commits: seq<Commit>, host: Host): ShapeComponent
    decreases |commits|
  {
    if commits == [] then c else ApplyCommits(ApplyCommit(c, commits[0], host), commits[1..], host)
  }

  /** A run that starts with `x` after `prefix` applies `x` first. */
  lemma ApplyCommitsAfter(prefix: seq<Commit>, x: Commit, all: seq<Commit>, c: ShapeComponent, host: Host)
    requires |all| > |prefix| && all[..|prefix| + 1] == prefix + [x]
    ensures ApplyCommits(c, all[|prefix|..], host) == ApplyCommits(ApplyCommit(c, x, host), all[|prefix| + 1..], host)
  {
    assert all[|prefix|..][0] == x;
    assert all[|prefix|..][1..] == all[|prefix| + 1..];
  }

  /** Commits applied in two stages, each the new part of a growing sequence, are all the new commits applied. */
  lemma ApplyCommitsChain(c: ShapeComponent, c1: ShapeComponent, c2: ShapeComponent,
                          pre: seq<Commit>, mid: seq<Commit>, all: seq<Commit>, host: Host)
    requires |pre| <= |mid| <= |all| && mid[..|pre|] == pre && all[..|mid|] == mid
    requires c1 == ApplyCommits(c, mid[|pre|..], host)
    requires c2 == ApplyCommits(c1, all[|mid|..], host)
    ensures c2 == ApplyCommits(c, all[|pre|..], host)
  {
    assert all[|pre|..] == mid[|pre|..] + all[|mid|..];
    ApplyCommitsAppend(c, mid[|pre|..], all[|mid|..], host);
  }

  /** Applying two runs of commits one after the other is applying their concatenation. */
  lemma {:induction false} ApplyCommitsAppend(c: ShapeComponent, a: seq<Commit>, b: seq<Commit>, host: Host)
    ensures ApplyCommits(c, a + b, host) == ApplyCommits(ApplyCommits(c, a, host), b, host)
    decreases |a|
  {
    if a == [] {
      assert a + b == b;
    } else {
      assert (a + b)[0] == a[0];
      assert (a + b)[1..] == a[1..] + b;
      ApplyCommitsAppend(ApplyCommit(c, a[0], host), a[1..], b, host);
    }
  }

  /**
   The shape after applying only the resizes among the commits, in order.
   The size pass commits nothing else, and its replay is stated through
   this function so that no rotation has to be considered there.
   */
  function ApplyResizes(c: ShapeComponent, commits: seq<Commit>, host: Host): ShapeComponent
    decreases |commits|
  {
    if commits == [] then c
    else if commits[0].Resize? then
      ApplyResizes(host.updateBounds(c, Bounds(commits[0].center, commits[0].size)), commits[1..], host)
    else ApplyResizes(c, commits[1..], host)
  }

  /** On a run of resizes, replaying the resizes is replaying the commits. */
  lemma {:induction false} ApplyResizesAsCommits(c: ShapeComponent, commits: seq<Commit>, host: Host)
    requires forall i :: 0 <= i < |commits| ==> commits[i].Resize?
    ensures ApplyResizes(c, commits, host) == ApplyCommits(c, commits, host)
    decreases |commits|
  {
    if commits != [] {
      assert commits[0].Resize?;
      ApplyResizesAsCommits(host.updateBounds(c, Bounds(commits[0].center, commits[0].size)), commits[1..], host);
    }
  }

  /** Resizes applied in two stages, each the new part of a growing sequence, are all the new resizes applied. */
  lemma ApplyResizesChain(c: ShapeComponent, c1: ShapeComponent, c2: ShapeComponent,
                          pre: seq<Commit>, mid: seq<Commit>, all: seq<Commit>, host: Host)
    requires |pre| <= |mid| <= |all| && mid[..|pre|] == pre && all[..|mid|] == mid
    requires c1 == ApplyResizes(c, mid[|pre|..], host)
    requires c2 == ApplyResizes(c1, all[|mid|..], host)
    ensures c2 == ApplyResizes(c, all[|pre|..], host)
  {
    assert all[|pre|..] == mid[|pre|..] + all[|mid|..];
    ApplyResizesAppend(c, mid[|pre|..], all[|mid|..], host);
  }

  /** Applying two runs of resizes one after the other is applying their concatenation. */
  lemma {:induction false} ApplyResizesAppend(c: ShapeComponent, a: seq<Commit>, b: seq<Commit>, host: Host)
    ensures ApplyResizes(c, a + b, host) == ApplyResizes(ApplyResizes(c, a, host), b, host)
    decreases |a|
  {
    if a == [] {
      assert a + b == b;
    } else {
      assert (a + b)[0] == a[0];
      assert (a + b)[1..] == a[1..] + b;
      var c' := if a[0].Resize? then host.updateBounds(c, Bounds(a[0].center, a[0].size)) else c;
      ApplyResizesAppend(c', a[1..], b, host);
    }
  }

  /** The result of one `DoEditingGUI` call; `target` is `None` for a null component. */
  datatype Outcome = Outcome(session: Session, evt: Event, target: Option<ShapeComponent>, commits: seq<Commit>)

  /**
   An orientation arrow is armed exactly when the id is one of this pass's
   orientation ids and it holds the hot control.
   */
  predicate ArmConsistent(s: Session, ids: seq<int>) {
    s.currentId == NoId || (s.currentId in ids && s.hotControl == s.currentId)
  }

  /** A face whose orientation arrows take part: visible and under the pointer. */
  predicate Eligible(f: FaceData, host: Host) {
    f.isVisible && host.pointerIsInFace(f)
  }

  /** Some face from index `k` on is eligible. */
  predicate SomeEligible(faces: seq<FaceData>, k: nat, host: Host) {
    exists j :: k <= j < |faces| && Eligible(faces[j], host)
  }

  /** A pointer-down or pointer-up the orientation arrows react to: button 0 over one of their ids. */
  predicate OverArrow(evt: Event, nearest: int, ids: seq<int>) {
    nearest in ids && evt.button == 0
  }

  /** The position of the first occurrence of `id` (the lookup loop at the rotation commit). */
  function IndexOf(ids: seq<int>, id: int): (i: nat)
    requires id in ids
    ensures i < |ids| && ids[i] == id
    ensures forall j :: 0 <= j < i ==> ids[j] != id
  {
    if ids[0] == id then 0 else 1 + IndexOf(ids[1..], id)
  }

  function Min(a: int, b: int): int {
    if a < b then a else b
  }

  /** The arrows a repaint draws for a face: one per point of the face, at most one per orientation id. */
  function ShownArrows(ids: seq<int>, face: FaceData): (shown: seq<int>)
    ensures |shown| <= |face.points| && |shown| <= |ids| && shown == ids[..|shown|]
    ensures |face.points| <= |ids| ==> |shown| == |face.points|
  {
    ids[..Min(|face.points|, |ids|)]
  }

  datatype HandleResult = HandleResult(session: Session, evt: Event, hasRotated: bool)

  /**
   `DoOrientationHandle` for one face: the state machine of the orientation
   arrows. Pointer-down over an arrow arms it and takes the hot control;
   pointer-up over an arrow releases both and reports a rotation only when it
   is the armed arrow; a drag that leaves the armed arrow aborts; a repaint
   records the hovered arrow. The rotation itself is the host's.
   */
  function OrientationHandle(s: Session, evt: Event, nearest: int, ids: seq<int>, face: FaceData, host: Host)
    : (r: HandleResult)
    ensures evt.kind == MouseDown ==>
      && !r.hasRotated
      && (OverArrow(evt, nearest, ids) ==>
            r.session == s.(currentId := nearest, hotControl := nearest) && r.evt == Use(evt))
      && (!OverArrow(evt, nearest, ids) ==> r.session == s && r.evt == evt)
    ensures evt.kind == MouseUp && OverArrow(evt, nearest, ids) ==>
      && r.session.hotControl == NoControl && r.session.currentId == NoId
      && (r.hasRotated <==> s.currentId == nearest)
      && r.evt == Use(evt)
      && r.session.(hotControl := s.hotControl, currentId := s.currentId, shapeRotation := s.shapeRotation) == s
    ensures evt.kind == MouseUp && !OverArrow(evt, nearest, ids) ==> r == HandleResult(s, evt, false)
    ensures r.hasRotated ==>
      && evt.kind == MouseUp && nearest in ids && s.currentId == nearest
      && r.session.shapeRotation == host.arrowRotation(face, IndexOf(ids, nearest))
    ensures !r.hasRotated ==> r.session.shapeRotation == s.shapeRotation
    ensures evt.kind == MouseDrag ==>
      && !r.hasRotated && r.evt == evt
      && (s.currentId in ids && nearest != s.currentId ==>
            r.session == s.(hotControl := NoControl, currentId := NoId))
      && (!(s.currentId in ids && nearest != s.currentId) ==> r.session == s)
    ensures evt.kind == Repaint ==>
      && r.session.(arrowHovered := s.arrowHovered) == s && r.evt == evt && !r.hasRotated
      && (nearest in ShownArrows(ids, face) ==> r.session.arrowHovered == nearest)
      && (nearest !in ShownArrows(ids, face) ==> r.session.arrowHovered == NoId)
      && (nearest !in ids ==> r.session.arrowHovered == NoId)
    ensures evt.kind !in {MouseDown, MouseUp, MouseDrag, Repaint} ==> r == HandleResult(s, evt, false)
    ensures r.session.faces == s.faces && r.session.sizeLeftOver == s.sizeLeftOver
  {
    match evt.kind
    case MouseDown =>
      if OverArrow(evt, nearest, ids) then
        HandleResult(s.(currentId := nearest, hotControl := nearest), Use(evt), false)
      else
        HandleResult(s, evt, false)
    case MouseUp =>
      if OverArrow(evt, nearest, ids) then
        if s.currentId == nearest then
          var rotation := host.arrowRotation(face, IndexOf(ids, s.currentId));
          HandleResult(s.(hotControl := NoControl, shapeRotation := rotation, currentId := NoId), Use(evt), true)
        else
          HandleResult(s.(hotControl := NoControl, currentId := NoId), Use(evt), false)
      else
        HandleResult(s, evt, false)
    case Repaint =>
      HandleResult(s.(arrowHovered := if nearest in ShownArrows(ids, face) then nearest else NoId), evt, false)
    case MouseDrag =>
      if s.currentId in ids && nearest != s.currentId then
        HandleResult(s.(hotControl := NoControl, currentId := NoId), evt, false)
      else
        HandleResult(s, evt, false)
    case _ =>
      HandleResult(s, evt, false)
  }

  /**
   The `foreach` over the faces in `DoOrientationHandlesGUI`, from face `k`
   on: every eligible face runs the state machine; a reported rotation is
   applied with `RotateInsideBounds` and committed.
   */
  function OrientationFaces(p: Pass, frame: Frame, host: Host, faces: seq<FaceData>, k: nat): (r: Pass)
    requires k <= |faces|
    ensures r.session.faces == p.session.faces
    ensures |r.commits| >= |p.commits| && r.commits[..|p.commits|] == p.commits
    ensures forall i :: |p.commits| <= i < |r.commits| ==>
      && r.commits[i].Rotate? && k <= r.commits[i].face < |faces| && Eligible(faces[r.commits[i].face], host)
      && frame.nearestControl in frame.orientationIds
      && r.commits[i].delta
         == host.arrowRotation(faces[r.commits[i].face], IndexOf(frame.orientationIds, frame.nearestControl))
    ensures |r.commits| == |p.commits| ==> r.component == p.component
    ensures r.component == ApplyCommits(p.component, r.commits[|p.commits|..], host)
    decreases |faces| - k, 1
  {
    if k == |faces| then p else OrientationFace(p, frame, host, faces, k)
  }

  /** The body of the orientation loop for face `k`, followed by the rest of the loop. */
  function OrientationFace(p: Pass, frame: Frame, host: Host, faces: seq<FaceData>, k: nat): Pass
    requires k < |faces|
    decreases |faces| - k, 0
  {
    OrientationFaces(OrientationNext(p, frame, host, faces, k), frame, host, faces, k + 1)
  }

  /**
   The pass the orientation loop continues with after face `k`: unchanged
   for a face that does not take part; otherwise the state machine's
   session and event, with the reported rotation applied and committed.
   */
  function OrientationNext(p: Pass, frame: Frame, host: Host, faces: seq<FaceData>, k: nat): (r: Pass)
    requires k < |faces|
    ensures r.session.faces == p.session.faces
    ensures |p.commits| <= |r.commits| <= |p.commits| + 1 && r.commits[..|p.commits|] == p.commits
    ensures |r.commits| > |p.commits| ==>
      && Eligible(faces[k], host) && frame.nearestControl in frame.orientationIds
      && r.commits[|p.commits|]
         == Rotate(k, host.arrowRotation(faces[k], IndexOf(frame.orientationIds, frame.nearestControl)))
    ensures |r.commits| == |p.commits| ==> r.component == p.component
    ensures r.component == ApplyCommits(p.component, r.commits[|p.commits|..], host)
  {
    if Eligible(faces[k], host) then
      var h := OrientationHandle(p.session, p.evt, frame.nearestControl, frame.orientationIds, faces[k], host);
      if h.hasRotated then
        var x := Rotate(k, h.session.shapeRotation);
        assert (p.commits + [x])[|p.commits|..] == [x];
        Pass(h.session, h.evt, RotateInsideBounds(p.component, h.session.shapeRotation).component,
             p.commits + [Rotate(k, h.session.shapeRotation)])
      else
        assert p.commits[|p.commits|..] == [];
        Pass(h.session, h.evt, p.component, p.commits)
    else
      assert p.commits[|p.commits|..] == [];
      p
  }

  /** The orientation loop from face `k` is the loop from `k + 1` after the step on face `k`. */
  lemma OrientationFacesStep(p: Pass, frame: Frame, host: Host, faces: seq<FaceData>, k: nat)
    requires k < |faces|
    ensures OrientationFaces(p, frame, host, faces, k)
         == OrientationFaces(OrientationNext(p, frame, host, faces, k), frame, host, faces, k + 1)
  {
    assert OrientationFaces(p, frame, host, faces, k) == OrientationFace(p, frame, host, faces, k);
  }

  /** A control other than the orientation arrows holds the hot control. */
  predicate ForeignHot(s: Session, ids: seq<int>) {
    s.hotControl != NoControl && s.hotControl !in ids
  }

  /** `DoOrientationHandlesGUI`: nothing happens while a foreign control is hot. */
  function OrientationHandles(p: Pass, frame: Frame, host: Host): (r: Pass)
    ensures ForeignHot(p.session, frame.orientationIds) ==> r == p
    ensures r.session.faces == p.session.faces
    ensures |r.commits| >= |p.commits| && r.commits[..|p.commits|] == p.commits
    ensures forall i :: |p.commits| <= i < |r.commits| ==> r.commits[i].Rotate?
    ensures r.component == ApplyCommits(p.component, r.commits[|p.commits|..], host)
  {
    if ForeignHot(p.session, frame.orientationIds) then p
    else OrientationFaces(p, frame, host, p.session.faces, 0)
  }

  datatype SizeHandleResult = SizeHandleResult(session: Session, moved: bool)

  /** The early exit of `DoFaceSizeHandle`: the pointer is over an orientation arrow of another face. */
  predicate ArrowOfOtherFace(face: FaceData, frame: Frame, host: Host) {
    frame.nearestControl in frame.orientationIds && !host.pointerIsInFace(face)
  }

  /**
   What a moved slider measures its step from: the position reached in the
   previous frame of the drag, or, when no drag is under way
   (`s_LastDelta` is negative infinity), the face centre along the normal.
   */
  function DragBaseline(s: Session, face: FaceData): (b: Vec3)
    ensures s.lastDelta.Some? ==> b == s.sizeDelta
    ensures s.lastDelta.None? ==> b == Scale(face.centerPosition, face.normal)
  {
    if s.lastDelta.None? then Scale(face.centerPosition, face.normal) else s.sizeDelta
  }

  /**
   `DoFaceSizeHandle`: run the slider of face `index`. When it moves, the
   previous frame's position (or, at the start of a drag, the face centre
   along the normal) becomes the last delta and the new position along the
   normal the current one. When it does not move and nothing is hot, the last
   delta is reset so that the next drag starts afresh.
   */
  function FaceSizeHandle(s: Session, face: FaceData, index: nat, frame: Frame, host: Host): (r: SizeHandleResult)
    ensures ArrowOfOtherFace(face, frame, host) ==> r == SizeHandleResult(s, false)
    ensures r.moved <==> !ArrowOfOtherFace(face, frame, host) && frame.slider(index).moved.Some?
    ensures r.moved ==>
      && r.session.sizeDelta == Scale(frame.slider(index).moved.value, face.normal)
      && r.session.lastDelta
         == Some(Times(Dot(host.normalized(DragBaseline(s, face)), host.normalized(r.session.sizeDelta)),
                       DragBaseline(s, face)))
    ensures !r.moved ==> r.session.sizeDelta == s.sizeDelta
    ensures !r.moved && !ArrowOfOtherFace(face, frame, host) ==>
      (r.session.hotControl == NoControl ==> r.session.lastDelta == None)
      && (r.session.hotControl != NoControl ==> r.session.lastDelta == s.lastDelta)
    ensures !ArrowOfOtherFace(face, frame, host) ==> r.session.hotControl == frame.slider(index).hotControl
    ensures r.session.(hotControl := s.hotControl, lastDelta := s.lastDelta, sizeDelta := s.sizeDelta) == s
  {
    if ArrowOfOtherFace(face, frame, host) then
      SizeHandleResult(s, false)
    else
      var slider := frame.slider(index);
      var s1 := s.(hotControl := slider.hotControl);
      match slider.moved
      case Some(target) =>
        var previous := DragBaseline(s, face);
        var current := Scale(target, face.normal);
        var last := Times(Dot(host.normalized(previous), host.normalized(current)), previous);
        SizeHandleResult(s1.(lastDelta := Some(last), sizeDelta := current), true)
      case None =>
        SizeHandleResult(if slider.hotControl == NoControl then s1.(lastDelta := None) else s1, false)
  }

  /**
   The drag amount spread onto the face's axis in size units:
   `Scale(Scale(amount * |normal|, 1/scale), Scale(scale, Sign(size)))`.
   The object's scale cancels out, so the result only depends on the face
   normal and the signs of the shape's size.
   */
  function AxisDelta(amount: real, normal: Vec3, scale: Vec3, size: Vec3): (d: Vec3)
    requires NoZeroComponent(scale)
    ensures d == Scale(Times(amount, Abs(normal)), Sign(size))
  {
    var a := Times(amount, Abs(normal));
    var inv := Reciprocal(scale);
    var d := Scale(Scale(a, inv), Scale(scale, Sign(size)));
    ScaleCancels(a.x, scale.x, SignReal(size.x));
    ScaleCancels(a.y, scale.y, SignReal(size.y));
    ScaleCancels(a.z, scale.z, SignReal(size.z));
    d
  }

  lemma ScaleCancels(a: real, s: real, g: real)
    requires s != 0.0
    ensures a * (1.0 / s) * (s * g) == a * g
  {
    calc {
      a * (1.0 / s) * (s * g);
      == a * ((1.0 / s) * s) * g;
      == { assert (1.0 / s) * s == 1.0; }
      a * g;
    }
  }

  /** The world position of the shape box centre: the transform's position plus the scaled, transformed box centre. */
  function CurrentCenter(c: ShapeComponent, frame: Frame, host: Host): Vec3 {
    Add(c.transform.position, Scale(host.transformVector(c.shape.shapeBox.center), frame.lossyScale))
  }

  /**
   How far a resize without alt moves the centre: half the length of the
   size offset, signed by the drag amount, along the world face normal and
   oriented by the signs of the scale.
   */
  function FaceShift(amount: real, offsetLength: real, worldNormal: Vec3, scale: Vec3): Vec3 {
    Scale(Times(SignReal(amount) * (offsetLength / 2.0), worldNormal), Sign(scale))
  }

  datatype Resized = Resized(session: Session, carry: Carry, commit: Commit)

  /**
   The body of the size-handle branch of `DoSizeHandlesGUI` for a face whose
   slider moved: turn this frame's drag into a size offset with the snap
   carry as the editor computes it (`SnapCarryAsWritten`: the carried
   remainder is added before the modifier is applied), move the centre by
   half the offset along the face normal (not at all while alt resizes
   symmetrically), and commit old size plus offset.
   */
  function ResizeFrame(c: ShapeComponent, s: Session, face: FaceData, index: nat, evt: Event,
                       frame: Frame, host: Host): (r: Resized)
    requires NoZeroComponent(frame.lossyScale)
    requires s.lastDelta.Some?
    ensures var amount := ComponentSum(Sub(s.sizeDelta, s.lastDelta.value));
      var axis := Scale(Times(amount, Abs(face.normal)), Sign(c.shape.size));
      && Add(r.carry.offset, r.carry.leftover) == Modified(evt.alt, Add(axis, s.sizeLeftOver))
      && r.carry.offset == host.snap(Modified(evt.alt, Add(axis, s.sizeLeftOver)),
                                     if evt.shift then frame.incrementalSnap else Zero)
    ensures r.session == s.(sizeLeftOver := r.carry.leftover)
    ensures r.commit.Resize? && r.commit.face == index
    ensures r.commit.size == Add(c.shape.size, r.carry.offset)
    ensures evt.alt ==> r.commit.center == CurrentCenter(c, frame, host)
    ensures !evt.alt ==>
      var amount := ComponentSum(Sub(s.sizeDelta, s.lastDelta.value));
      r.commit.center == Add(CurrentCenter(c, frame, host),
                             FaceShift(amount, host.magnitude(r.carry.offset),
                                       host.transformVector(face.normal), frame.lossyScale))
  {
    var amount := ComponentSum(Sub(s.sizeDelta, s.lastDelta.value));
    var axis := AxisDelta(amount, face.normal, frame.lossyScale, c.shape.size);
    var increment := if evt.shift then frame.incrementalSnap else Zero;
    var carry := SnapCarryAsWritten(host.snap, s.sizeLeftOver, axis, evt.alt, increment);
    var faceNormal := host.transformVector(face.normal);
    var shift :=
      if evt.alt then Zero
      else FaceShift(amount, host.magnitude(carry.offset), faceNormal, frame.lossyScale);
    var center := Add(CurrentCenter(c, frame, host), shift);
    AddZero(CurrentCenter(c, frame, host));
    Resized(s.(sizeLeftOver := carry.leftover), carry, Resize(index, center, Add(c.shape.size, carry.offset)))
  }

  lemma AddZero(v: Vec3)
    ensures Add(v, Zero) == v
  {
  }

  /**
   Face `j` of the size pass commits a resize: it is not skipped as an
   invalid face of a flat shape, the pointer is not over an arrow of another
   face, and its slider moved.
   */
  predicate SizeRuns(faces: seq<FaceData>, flat: bool, j: nat, frame: Frame, host: Host)
    requires j < |faces|
  {
    && !(flat && !faces[j].isValid)
    && !ArrowOfOtherFace(faces[j], frame, host)
    && frame.slider(j).moved.Some?
  }

  /**
   The loop of `DoSizeHandlesGUI` from face `k` on. On a flat shape (`flat`,
   fixed before the loop) faces that are not valid are skipped; every other
   face runs its slider, and a moved slider commits a resize through the
   host's `UpdateBounds`.
   */
  function SizeFaces(p: Pass, flat: bool, frame: Frame, host: Host, faces: seq<FaceData>, k: nat): (r: Pass)
    requires NoZeroComponent(frame.lossyScale)
    requires k <= |faces|
    ensures r.session.faces == p.session.faces
    ensures r.session.currentId == p.session.currentId
    ensures r.evt == p.evt
    ensures |r.commits| >= |p.commits| && r.commits[..|p.commits|] == p.commits
    ensures |r.commits| == |p.commits| ==>
      r.component == p.component && r.session.sizeLeftOver == p.session.sizeLeftOver
    decreases |faces| - k, 1
  {
    if k == |faces| then p else SizeFace(p, flat, frame, host, faces, k)
  }

  /** The body of the size loop for face `k`, followed by the rest of the loop. */
  function SizeFace(p: Pass, flat: bool, frame: Frame, host: Host, faces: seq<FaceData>, k: nat): Pass
    requires NoZeroComponent(frame.lossyScale)
    requires k < |faces|
    decreases |faces| - k, 0
  {
    SizeFaces(SizeNext(p, flat, frame, host, faces, k), flat, frame, host, faces, k + 1)
  }

  /**
   The pass the size loop continues with after face `k`: unchanged for a
   skipped face, with the slider's session for an unmoved one, and with the
   resize committed and applied for a moved one.
   */
  function SizeNext(p: Pass, flat: bool, frame: Frame, host: Host, faces: seq<FaceData>, k: nat): (r: Pass)
    requires NoZeroComponent(frame.lossyScale)
    requires k < |faces|
    ensures r.session.faces == p.session.faces
    ensures r.session.currentId == p.session.currentId
    ensures r.evt == p.evt
    ensures |r.commits| == |p.commits| + (if SizeRuns(faces, flat, k, frame, host) then 1 else 0)
    ensures r.commits[..|p.commits|] == p.commits
    ensures SizeRuns(faces, flat, k, frame, host) ==>
      r.commits[|p.commits|].Resize? && r.commits[|p.commits|].face == k
    ensures !SizeRuns(faces, flat, k, frame, host) ==>
      && r.component == p.component
      && r.session.(hotControl := p.session.hotControl, lastDelta := p.session.lastDelta) == p.session
    ensures r.component == ApplyResizes(p.component, r.commits[|p.commits|..], host)
  {
    if flat && !faces[k].isValid then
      assert p.commits[|p.commits|..] == [];
      p
    else
      var h := FaceSizeHandle(p.session, faces[k], k, frame, host);
      if h.moved then
        var rz := ResizeFrame(p.component, h.session, faces[k], k, p.evt, frame, host);
        assert (p.commits + [rz.commit])[|p.commits|..] == [rz.commit];
        var shaped := host.updateBounds(p.component, Bounds(rz.commit.center, rz.commit.size));
        Pass(rz.session, p.evt, shaped, p.commits + [rz.commit])
      else
        assert p.commits[|p.commits|..] == [];
        p.(session := h.session)
  }

  /** The size loop from face `k` is the loop from `k + 1` after `SizeNext` on face `k`. */
  lemma SizeFacesStep(p: Pass, flat: bool, frame: Frame, host: Host, faces: seq<FaceData>, k: nat)
    requires NoZeroComponent(frame.lossyScale)
    requires k < |faces|
    ensures SizeFaces(p, flat, frame, host, faces, k)
         == SizeFaces(SizeNext(p, flat, frame, host, faces, k), flat, frame, host, faces, k + 1)
  {
    assert SizeFaces(p, flat, frame, host, faces, k) == SizeFace(p, flat, frame, host, faces, k);
  }

  /** The same step, stating only what the replay needs of the pass after face `k`. */
  lemma SizeFaceStep(p: Pass, flat: bool, frame: Frame, host: Host, faces: seq<FaceData>, k: nat) returns (q: Pass)
    requires NoZeroComponent(frame.lossyScale)
    requires k < |faces|
    ensures SizeFaces(p, flat, frame, host, faces, k) == SizeFaces(q, flat, frame, host, faces, k + 1)
    ensures |q.commits| >= |p.commits| && q.commits[..|p.commits|] == p.commits
    ensures q.component == ApplyResizes(p.component, q.commits[|p.commits|..], host)
  {
    q := SizeNext(p, flat, frame, host, faces, k);
    assert SizeFaces(p, flat, frame, host, faces, k) == SizeFace(p, flat, frame, host, faces, k);
  }

  /** Every resize the size pass commits from face `k` on is for a face from `k` on that runs. */
  lemma {:induction false} SizeFacesSound(p: Pass, flat: bool, frame: Frame, host: Host, faces: seq<FaceData>, k: nat)
    requires NoZeroComponent(frame.lossyScale)
    requires k <= |faces|
    ensures var r := SizeFaces(p, flat, frame, host, faces, k);
      forall i :: |p.commits| <= i < |r.commits| ==>
        && r.commits[i].Resize? && k <= r.commits[i].face < |faces|
        && SizeRuns(faces, flat, r.commits[i].face, frame, host)
    decreases |faces| - k
  {
    if k < |faces| {
      SizeFacesStep(p, flat, frame, host, faces, k);
      var q := SizeNext(p, flat, frame, host, faces, k);
      SizeFacesSound(q, flat, frame, host, faces, k + 1);
      var r := SizeFaces(q, flat, frame, host, faces, k + 1);
      assert r.commits[..|q.commits|] == q.commits;
    }
  }

  /** Every face from `k` on that runs gets a resize in the size pass from face `k` on. */
  lemma {:induction false} SizeFacesComplete(p: Pass, flat: bool, frame: Frame, host: Host,
                                             faces: seq<FaceData>, k: nat)
    requires NoZeroComponent(frame.lossyScale)
    requires k <= |faces|
    ensures var r := SizeFaces(p, flat, frame, host, faces, k);
      forall j :: k <= j < |faces| && SizeRuns(faces, flat, j, frame, host) ==>
        exists i :: |p.commits| <= i < |r.commits| && r.commits[i].face == j
    decreases |faces| - k
  {
    if k < |faces| {
      SizeFacesStep(p, flat, frame, host, faces, k);
      var q := SizeNext(p, flat, frame, host, faces, k);
      SizeFacesComplete(q, flat, frame, host, faces, k + 1);
      var r := SizeFaces(q, flat, frame, host, faces, k + 1);
      assert r.commits[..|q.commits|] == q.commits;
      if SizeRuns(faces, flat, k, frame, host) {
        assert r.commits[|p.commits|] == q.commits[|p.commits|];
      }
    }
  }

  /** Along the size pass, the shape is the old shape with the pass's resizes applied in order. */
  lemma {:induction false} SizeFacesApplyResizes(p: Pass, flat: bool, frame: Frame, host: Host,
                                                 faces: seq<FaceData>, k: nat)
    requires NoZeroComponent(frame.lossyScale)
    requires k <= |faces|
    ensures var r := SizeFaces(p, flat, frame, host, faces, k);
      r.component == ApplyResizes(p.component, r.commits[|p.commits|..], host)
    decreases |faces| - k
  {
    if k == |faces| {
      assert p.commits[|p.commits|..] == [];
    } else {
      var q := SizeFaceStep(p, flat, frame, host, faces, k);
      var r := SizeFaces(q, flat, frame, host, faces, k + 1);
      SizeFacesApplyResizes(q, flat, frame, host, faces, k + 1);
      assert SizeFaces(p, flat, frame, host, faces, k) == r;
      ApplyResizesChain(p.component, q.component, r.component, p.commits, q.commits, r.commits, host);
    }
  }

  /**
   A pass in which exactly one face `j` (from `k` on) resizes commits the
   resize that face's slider and `ResizeFrame` compute, from the pass's shape
   and event, and leaves the shape at the host's `UpdateBounds` of that commit.
   The session the face sees differs from the pass's only in the hot control
   and the last delta, which the unmoved sliders before it may have changed.
   */
  lemma SizeFacesSingleMove(p: Pass, flat: bool, frame: Frame, host: Host, faces: seq<FaceData>, k: nat, j: nat)
    requires NoZeroComponent(frame.lossyScale)
    requires k <= j < |faces|
    requires SizeRuns(faces, flat, j, frame, host)
    requires forall m :: k <= m < |faces| && m != j ==> !SizeRuns(faces, flat, m, frame, host)
    ensures var r := SizeFaces(p, flat, frame, host, faces, k);
      exists ss: Session ::
        && ss.(hotControl := p.session.hotControl, lastDelta := p.session.lastDelta) == p.session
        && SingleResize(p.(session := ss), r, faces[j], j, frame, host)
  {
    var ss := SizeFacesSkipIdle(p, flat, frame, host, faces, k, j);
    SizeFacesMoveAt(p.(session := ss), flat, frame, host, faces, j);
  }

  /**
   Faces that do not resize only move the hot control and the last delta:
   the loop from `k` is the loop from `j` on the same pass with a session
   that differs in those two fields alone.
   */
  lemma {:induction false} SizeFacesSkipIdle(p: Pass, flat: bool, frame: Frame, host: Host,
                                             faces: seq<FaceData>, k: nat, j: nat)
    returns (ss: Session)
    requires NoZeroComponent(frame.lossyScale)
    requires k <= j <= |faces|
    requires forall m :: k <= m < j ==> !SizeRuns(faces, flat, m, frame, host)
    ensures ss.(hotControl := p.session.hotControl, lastDelta := p.session.lastDelta) == p.session
    ensures SizeFaces(p, flat, frame, host, faces, k) == SizeFaces(p.(session := ss), flat, frame, host, faces, j)
    decreases |faces| - k
  {
    if k < j {
      var q := SizeFaceIdleStep(p, flat, frame, host, faces, k);
      ss := SizeFacesSkipIdle(q, flat, frame, host, faces, k + 1, j);
      assert q.(session := ss) == p.(session := ss);
    } else {
      ss := p.session;
      assert p.(session := ss) == p;
    }
  }

  /** A face that does not resize hands the next face the same pass up to the hot control and the last delta. */
  lemma SizeFaceIdleStep(p: Pass, flat: bool, frame: Frame, host: Host, faces: seq<FaceData>, k: nat)
    returns (q: Pass)
    requires NoZeroComponent(frame.lossyScale)
    requires k < |faces| && !SizeRuns(faces, flat, k, frame, host)
    ensures SizeFaces(p, flat, frame, host, faces, k) == SizeFaces(q, flat, frame, host, faces, k + 1)
    ensures q.commits == p.commits && q.component == p.component && q.evt == p.evt
    ensures q.session.(hotControl := p.session.hotControl, lastDelta := p.session.lastDelta) == p.session
  {
    SizeFacesStep(p, flat, frame, host, faces, k);
    q := SizeNext(p, flat, frame, host, faces, k);
  }

  /**
   When face `j` is the first and only face from `j` on that resizes, the
   pass commits its resize on the pass's own session.
   */
  lemma SizeFacesMoveAt(p: Pass, flat: bool, frame: Frame, host: Host, faces: seq<FaceData>, j: nat)
    requires NoZeroComponent(frame.lossyScale)
    requires j < |faces|
    requires SizeRuns(faces, flat, j, frame, host)
    requires forall m :: j < m < |faces| ==> !SizeRuns(faces, flat, m, frame, host)
    ensures SingleResize(p, SizeFaces(p, flat, frame, host, faces, j), faces[j], j, frame, host)
  {
    SizeFacesStep(p, flat, frame, host, faces, j);
    var q := SizeNext(p, flat, frame, host, faces, j);
    SizeFacesIdle(q, flat, frame, host, faces, j + 1);
  }

  /** A size pass in which no face from `k` on runs commits nothing. */
  lemma {:induction false} SizeFacesIdle(p: Pass, flat: bool, frame: Frame, host: Host, faces: seq<FaceData>, k: nat)
    requires NoZeroComponent(frame.lossyScale)
    requires k <= |faces|
    requires forall m :: k <= m < |faces| ==> !SizeRuns(faces, flat, m, frame, host)
    ensures |SizeFaces(p, flat, frame, host, faces, k).commits| == |p.commits|
    decreases |faces| - k
  {
    if k < |faces| {
      SizeFacesStep(p, flat, frame, host, faces, k);
      SizeFacesIdle(SizeNext(p, flat, frame, host, faces, k), flat, frame, host, faces, k + 1);
    }
  }

  /**
   `r` ends a size pass whose only commit is face `j` resizing from `start`
   (the pass as that face sees it): the commit, the carried remainder and
   the shape all come from that face's slider and one `ResizeFrame`.
   */
  predicate SingleResize(start: Pass, r: Pass, face: FaceData, j: nat, frame: Frame, host: Host)
    requires NoZeroComponent(frame.lossyScale)
  {
    var h := FaceSizeHandle(start.session, face, j, frame, host);
    && h.moved
    && var rz := ResizeFrame(start.component, h.session, face, j, start.evt, frame, host);
    && r.commits == start.commits + [rz.commit]
    && r.session.sizeLeftOver == rz.carry.leftover
    && r.component == host.updateBounds(start.component, Bounds(rz.commit.center, rz.commit.size))
  }

  /** `DoSizeHandlesGUI`. */
  function SizeHandles(p: Pass, frame: Frame, host: Host): (r: Pass)
    requires NoZeroComponent(frame.lossyScale)
    ensures r.session.faces == p.session.faces
    ensures r.session.currentId == p.session.currentId
    ensures |r.commits| >= |p.commits| && r.commits[..|p.commits|] == p.commits
    ensures forall i :: |p.commits| <= i < |r.commits| ==>
      && r.commits[i].Resize? && r.commits[i].face < |p.session.faces|
      && (IsFlatKind(p.component.shape.kind) ==> p.session.faces[r.commits[i].face].isValid)
      && SizeRuns(p.session.faces, IsFlatKind(p.component.shape.kind), r.commits[i].face, frame, host)
    ensures forall j ::
      (0 <= j < |p.session.faces| && SizeRuns(p.session.faces, IsFlatKind(p.component.shape.kind), j, frame, host)) ==>
      exists i :: |p.commits| <= i < |r.commits| && r.commits[i].face == j
    ensures |r.commits| == |p.commits| ==>
      r.component == p.component && r.session.sizeLeftOver == p.session.sizeLeftOver
    ensures r.component == ApplyCommits(p.component, r.commits[|p.commits|..], host)
  {
    var r := SizeFaces(p, IsFlatKind(p.component.shape.kind), frame, host, p.session.faces, 0);
    SizeFacesSound(p, IsFlatKind(p.component.shape.kind), frame, host, p.session.faces, 0);
    SizeFacesComplete(p, IsFlatKind(p.component.shape.kind), frame, host, p.session.faces, 0);
    SizeFacesApplyResizes(p, IsFlatKind(p.component.shape.kind), frame, host, p.session.faces, 0);
    ApplyResizesAsCommits(p.component, r.commits[|p.commits|..], host);
    r
  }

  /**
   `DoEditingGUI`: a null component does nothing. Otherwise the faces are
   recomputed from the edition bounds, the orientation handles run only when
   all three edition-bounds sizes exceed epsilon, and the size handles always
   run.
   */
  function DoEditingGUI(target: Option<ShapeComponent>, s: Session, frame: Frame, host: Host): (r: Outcome)
    requires NoZeroComponent(frame.lossyScale)
    ensures target.None? ==> r == Outcome(s, frame.evt, None, [])
    ensures target.Some? ==>
      && r.target == Some(ApplyCommits(target.value, r.commits, host))
      && r.session.faces == host.updateFaces(EditionBounds(target.value.shape), frame.lossyScale)
    ensures target.Some? && !AllAboveEpsilon(EditionBounds(target.value.shape).size) ==>
      && r.session.currentId == s.currentId
      && forall i :: 0 <= i < |r.commits| ==> r.commits[i].Resize?
  {
    match target
    case None => Outcome(s, frame.evt, None, [])
    case Some(c) =>
      var bounds := EditionBounds(c.shape);
      var start := Pass(s.(faces := host.updateFaces(bounds, frame.lossyScale)), frame.evt, c, []);
      var oriented :=
        if AllAboveEpsilon(bounds.size) then OrientationHandles(start, frame, host) else start;
      var done := SizeHandles(oriented, frame, host);
      assert done.commits == oriented.commits + done.commits[|oriented.commits|..];
      ApplyCommitsAppend(c, oriented.commits, done.commits[|oriented.commits|..], host);
      Outcome(done.session, done.evt, Some(done.component), done.commits)
  }
}

=== FILE: geometry.dfy ===
/**
 Real-valued stand-ins for the Unity value types the shape editor works with:
 `Vector3`, `Bounds` and `Quaternion`, plus the scalar helpers of `Mathf` that
 the editor calls. Single-precision rounding is not modelled: every component
 is an exact `real`.
 */
module Geometry {

  /** Unity's `Mathf.Epsilon`, the smallest positive single-precision value (1.401298e-45). */
  const Epsilon: real := 0.000000000000000000000000000000000000000000001401298

  datatype Option<+T> = None | Some(value: T)

  /** `Mathf.Abs`. */
  function AbsReal(r: real): (a: real)
    ensures a >= 0.0
    ensures a == r || a == -r
  {
    if r < 0.0 then -r else r
  }

  /** `Mathf.Sign`: 1 for zero and positive values, -1 for negative ones. */
  function SignReal(r: real): (s: real)
    ensures s == 1.0 || s == -1.0
    ensures s * r == AbsReal(r)
  {
    if r >= 0.0 then 1.0 else -1.0
  }

  datatype Vec3 = Vec3(x: real, y: real, z: real)

  const Zero: Vec3 := Vec3(0.0, 0.0, 0.0)

  function Add(a: Vec3, b: Vec3): Vec3 {
    Vec3(a.x + b.x, a.y + b.y, a.z + b.z)
  }

  function Sub(a: Vec3, b: Vec3): Vec3 {
    Vec3(a.x - b.x, a.y - b.y, a.z - b.z)
  }

  /** Scalar multiplication `k * v`. */
  function Times(k: real, v: Vec3): Vec3 {
    Vec3(k * v.x, k * v.y, k * v.z)
  }

  /** `Vector3.Scale`: component-wise product. */
  function Scale(a: Vec3, b: Vec3): Vec3 {
    Vec3(a.x * b.x, a.y * b.y, a.z * b.z)
  }

  function Dot(a: Vec3, b: Vec3): real {
    a.x * b.x + a.y * b.y + a.z * b.z
  }

  /** Component-wise `Mathf.Abs`, as the editor's `Math.Abs(Vector3)`. */
  function Abs(v: Vec3): Vec3 {
    Vec3(AbsReal(v.x), AbsReal(v.y), AbsReal(v.z))
  }

  /** Component-wise `Mathf.Sign`, as the editor's `Math.Sign(Vector3)`. */
  function Sign(v: Vec3): Vec3 {
    Vec3(SignReal(v.x), SignReal(v.y), SignReal(v.z))
  }

  /** Sum of the three components. */
  function ComponentSum(v: Vec3): real {
    v.x + v.y + v.z
  }

  predicate NoZeroComponent(v: Vec3) {
    v.x != 0.0 && v.y != 0.0 && v.z != 0.0
  }

  /** Component-wise reciprocal, `new Vector3(1f/v.x, 1f/v.y, 1f/v.z)`. */
  function Reciprocal(v: Vec3): (r: Vec3)
    requires NoZeroComponent(v)
    ensures Scale(r, v) == Vec3(1.0, 1.0, 1.0)
  {
    Vec3(1.0 / v.x, 1.0 / v.y, 1.0 / v.z)
  }

  /** Every component of `v` has magnitude above `Epsilon`. */
  predicate AllAboveEpsilon(v: Vec3) {
    AbsReal(v.x) > Epsilon && AbsReal(v.y) > Epsilon && AbsReal(v.z) > Epsilon
  }

  /** Unity's `Bounds`: an axis-aligned box given by centre and (signed) size. */
  datatype Bounds = Bounds(center: Vec3, size: Vec3)

  /** Unity's `Quaternion`, stored in Unity's (x, y, z, w) order. */
  datatype Quat = Quat(x: real, y: real, z: real, w: real)

  const Identity: Quat := Quat(0.0, 0.0, 0.0, 1.0)

  /** Unity's `Quaternion * Quaternion`: the Hamilton product, `a` applied after `b`. */
  function Mul(a: Quat, b: Quat): Quat {
    Quat(
      a.w * b.x + a.x * b.w + a.y * b.z - a.z * b.y,
      a.w * b.y + a.y * b.w + a.z * b.x - a.x * b.z,
      a.w * b.z + a.z * b.w + a.x * b.y - a.y * b.x,
      a.w * b.w - a.x * b.x - a.y * b.y - a.z * b.z)
  }

  /** The identity rotation is a two-sided unit of the product. */
  lemma MulIdentity(q: Quat)
    ensures Mul(Identity, q) == q
    ensures Mul(q, Identity) == q
  {
  }
}

=== FILE: shape_component.dfy ===
/**
 The runtime state of a parametric shape (`ShapeComponent`): the shape's
 signed size, its rotation and oriented box, the cached width/height/length
 fields, the pivot policy and the `edited` flag, with the operations that
 change them. The mesh itself is not modelled: the operations that act on it
 (`RebuildMesh`, `MeshUtility.FitToSize`, `UpdatePivot`, `ResetPivot`) are
 recorded, in order and with their arguments, as a trace of `MeshOp`s.
 */
module Shapes {
  import opened Geometry

  /** The shape variants of the library. */
  datatype ShapeKind =
    | Arch | Cone | Cube | Cylinder | Door | Pipe
    | Plane | Prism | Sphere | Sprite | Stairs | Torus

  /** Plane and Sprite are the flat (2-D) variants. */
  predicate IsFlatKind(k: ShapeKind) {
    k == Plane || k == Sprite
  }

  /** A shape: its variant, signed per-axis size, rotation and oriented box. */
  datatype Shape = Shape(kind: ShapeKind, size: Vec3, rotation: Quat, shapeBox: Bounds)

  datatype PivotLocation = Center | FirstVertex

  /** The serialized display fields `m_Width`, `m_Height`, `m_Length`. */
  datatype BoxProperties = BoxProperties(width: real, height: real, length: real)

  /** The owning scene object: gone (`null`) or present with its hide flags (0 is `HideFlags.None`). */
  datatype GameObject = Missing | Present(hideFlags: nat)

  datatype Transform = Transform(position: Vec3, rotation: Quat)

  datatype ShapeComponent = ShapeComponent(
    shape: Shape,
    properties: BoxProperties,
    pivotLocation: PivotLocation,
    edited: bool,
    gameObject: GameObject,
    transform: Transform)

  /** A call into the mesh code, whose own behaviour is outside this model. */
  datatype MeshOp =
    | ResetPivot
    | RebuildMesh(size: Vec3, rotation: Quat)
    | FitToSize(bounds: Bounds, targetSize: Vec3)
    | UpdatePivot(pivot: PivotLocation)

  /** The component after an operation, and the mesh calls it made, in order. */
  datatype Step = Step(component: ShapeComponent, meshOps: seq<MeshOp>)

  /** `gameObject == null || gameObject.hideFlags != HideFlags.None`. */
  predicate IsHidden(c: ShapeComponent) {
    c.gameObject.Missing? || c.gameObject.hideFlags != 0
  }

  predicate NonNegative(v: Vec3) {
    v.x >= 0.0 && v.y >= 0.0 && v.z >= 0.0
  }

  function PropertiesOf(size: Vec3): BoxProperties {
    BoxProperties(size.x, size.y, size.z)
  }

  function SizeOf(p: BoxProperties): Vec3 {
    Vec3(p.width, p.height, p.length)
  }

  /** The display fields and the size vector carry the same three numbers. */
  lemma PropertiesSizeRoundTrip(v: Vec3, p: BoxProperties)
    ensures SizeOf(PropertiesOf(v)) == v
    ensures PropertiesOf(SizeOf(p)) == p
  {
  }

  /**
   The box the editor draws handles around (`editionBounds`): the shape box's
   centre with the shape's size, except that a flat shape box (|size.y| below
   epsilon) gives a zero height.
   */
  function EditionBounds(s: Shape): (b: Bounds)
    ensures b.center == s.shapeBox.center
    ensures b.size.x == s.size.x && b.size.z == s.size.z
    ensures AbsReal(s.shapeBox.size.y) < Epsilon ==> b.size.y == 0.0
    ensures AbsReal(s.shapeBox.size.y) >= Epsilon ==> b.size.y == s.size.y
  {
    if AbsReal(s.shapeBox.size.y) < Epsilon then
      Bounds(s.shapeBox.center, Vec3(s.size.x, 0.0, s.size.z))
    else
      Bounds(s.shapeBox.center, s.size)
  }

  /**
   The edition bounds are non-degenerate on all three axes exactly when the
   shape box is not flat and the shape's size is non-degenerate.
   */
  lemma EditionBoundsDegenerate(s: Shape)
    ensures AllAboveEpsilon(EditionBounds(s).size)
        <==> AbsReal(s.shapeBox.size.y) >= Epsilon && AllAboveEpsilon(s.size)
  {
  }

  /** `UpdateProperties`: copy the size into the display fields. */
  function UpdateProperties(c: ShapeComponent): (r: ShapeComponent)
    ensures SizeOf(r.properties) == c.shape.size
    ensures r.(properties := c.properties) == c
  {
    c.(properties := PropertiesOf(c.shape.size))
  }

  /** The box handed to `FitToSize`: the shape box with its size made absolute. */
  function FitBounds(box: Bounds): (b: Bounds)
    ensures b.center == box.center
    ensures NonNegative(b.size)
    ensures Abs(b.size) == Abs(box.size)
  {
    Bounds(box.center, Abs(box.size))
  }

  /** Flipping the sign of any axis of the shape box does not change what the mesh is fitted to. */
  lemma FitBoundsSignInvariant(box: Bounds, flipped: Vec3)
    requires Abs(flipped) == Abs(box.size)
    ensures FitBounds(Bounds(box.center, flipped)) == FitBounds(box)
  {
  }

  /**
   `Rebuild()`: a hidden or missing object only refreshes the display fields;
   otherwise the mesh is regenerated from the size and rotation, fitted to
   the absolute shape box, re-pivoted, and `edited` is cleared.
   */
  function Rebuild(c: ShapeComponent): (r: Step)
    ensures SizeOf(r.component.properties) == c.shape.size
    ensures r.component.(properties := c.properties, edited := c.edited) == c
    ensures IsHidden(c) ==> r.meshOps == [] && r.component.edited == c.edited
    ensures !IsHidden(c) ==>
      && !r.component.edited
      && |r.meshOps| == 3
      && r.meshOps[0] == RebuildMesh(c.shape.size, c.shape.rotation)
      && r.meshOps[1].FitToSize? && r.meshOps[1].targetSize == c.shape.size
      && r.meshOps[2] == UpdatePivot(c.pivotLocation)
      && r.meshOps[1].bounds.center == c.shape.shapeBox.center
      && r.meshOps[1].bounds.size == Abs(c.shape.shapeBox.size)
      && NonNegative(r.meshOps[1].bounds.size)
  {
    if IsHidden(c) then
      Step(UpdateProperties(c), [])
    else
      var ops := [RebuildMesh(c.shape.size, c.shape.rotation),
                  FitToSize(FitBounds(c.shape.shapeBox), c.shape.size),
                  UpdatePivot(c.pivotLocation)];
      Step(UpdateProperties(c.(edited := false)), ops)
  }

  /** Rebuilding twice with nothing changed in between gives the same state and the same mesh calls. */
  lemma RebuildIdempotent(c: ShapeComponent)
    ensures Rebuild(Rebuild(c).component) == Rebuild(c)
  {
  }

  /** Rebuilding never touches the shape, the pivot, the object or the transform. */
  lemma RebuildKeepsShape(c: ShapeComponent)
    ensures Rebuild(c).component.shape == c.shape
    ensures Rebuild(c).component.pivotLocation == c.pivotLocation
    ensures Rebuild(c).component.transform == c.transform
  {
  }

  /** `UpdateComponent`: reset the pivot, read the size back from the display fields, rebuild. */
  function UpdateComponent(c: ShapeComponent): (r: Step)
    ensures r.component.shape.size == SizeOf(c.properties)
    ensures SizeOf(r.component.properties) == SizeOf(c.properties)
    ensures |r.meshOps| > 0 && r.meshOps[0] == ResetPivot
    ensures r.component.shape.rotation == c.shape.rotation
    ensures r.component.shape.shapeBox == c.shape.shapeBox
    ensures IsHidden(c) ==> r.meshOps == [ResetPivot] && r.component.edited == c.edited
    ensures !IsHidden(c) ==>
      && !r.component.edited
      && |r.meshOps| == 4
      && r.meshOps[1] == RebuildMesh(SizeOf(c.properties), c.shape.rotation)
      && r.meshOps[2] == FitToSize(FitBounds(c.shape.shapeBox), SizeOf(c.properties))
      && r.meshOps[3] == UpdatePivot(c.pivotLocation)
  {
    var r := Rebuild(c.(shape := c.shape.(size := SizeOf(c.properties))));
    Step(r.component, [ResetPivot] + r.meshOps)
  }

  /**
   After any `Rebuild`, `UpdateComponent` reads back exactly the size that was
   written: it changes no state and regenerates the same mesh.
   */
  lemma UpdateComponentAfterRebuild(c: ShapeComponent)
    ensures UpdateComponent(Rebuild(c).component).component == Rebuild(c).component
    ensures UpdateComponent(Rebuild(c).component).meshOps == [ResetPivot] + Rebuild(Rebuild(c).component).meshOps
  {
    RebuildIdempotent(c);
    var c1 := Rebuild(c).component;
    PropertiesSizeRoundTrip(c.shape.size, c1.properties);
    assert c1.shape.(size := SizeOf(c1.properties)) == c1.shape;
  }

  /** `Rebuild(bounds, rotation)`: take the size from the bounds, move and turn the transform, rebuild. */
  function RebuildWith(c: ShapeComponent, bounds: Bounds, rotation: Quat): (r: Step)
    ensures r.component.shape.size == bounds.size
    ensures SizeOf(r.component.properties) == bounds.size
    ensures r.component.transform == Transform(bounds.center, rotation)
    ensures r.component.shape.rotation == c.shape.rotation
    ensures r.component.shape.shapeBox == c.shape.shapeBox
    ensures r.component.shape.kind == c.shape.kind
    ensures r.component.pivotLocation == c.pivotLocation
    ensures IsHidden(c) ==> r.meshOps == [] && r.component.edited == c.edited
    ensures !IsHidden(c) ==>
      && !r.component.edited
      && |r.meshOps| == 3
      && r.meshOps[0] == RebuildMesh(bounds.size, c.shape.rotation)
      && r.meshOps[1] == FitToSize(FitBounds(c.shape.shapeBox), bounds.size)
      && r.meshOps[2] == UpdatePivot(c.pivotLocation)
  {
    Rebuild(c.(shape := c.shape.(size := bounds.size), transform := Transform(bounds.center, rotation)))
  }

  /**
   After `Rebuild(bounds, rotation)`, `UpdateComponent` reads back exactly the
   size taken from the bounds: it changes no state.
   */
  lemma RebuildWithReadBack(c: ShapeComponent, bounds: Bounds, rotation: Quat)
    ensures var c1 := RebuildWith(c, bounds, rotation).component;
      && UpdateComponent(c1).component == c1
      && UpdateComponent(c1).component.shape.size == bounds.size
  {
    var moved := c.(shape := c.shape.(size := bounds.size), transform := Transform(bounds.center, rotation));
    UpdateComponentAfterRebuild(moved);
  }

  /** The `pivotLocation` setter: store the new policy, then rebuild with it. */
  function SetPivotLocation(c: ShapeComponent, p: PivotLocation): (r: Step)
    ensures r.component.pivotLocation == p
    ensures r.component.shape == c.shape
    ensures !IsHidden(c) ==> |r.meshOps| == 3 && r.meshOps[2] == UpdatePivot(p)
    ensures IsHidden(c) ==> r.meshOps == [] && r.component.edited == c.edited
  {
    Rebuild(c.(pivotLocation := p))
  }

  /** Setting the pivot to the value it already has is a plain rebuild. */
  lemma SetPivotLocationSame(c: ShapeComponent)
    ensures SetPivotLocation(c, c.pivotLocation) == Rebuild(c)
  {
    assert c.(pivotLocation := c.pivotLocation) == c;
  }

  /** After the setter, a further rebuild changes nothing and repeats the same mesh calls. */
  lemma SetPivotLocationThenRebuild(c: ShapeComponent, p: PivotLocation)
    ensures Rebuild(SetPivotLocation(c, p).component) == SetPivotLocation(c, p)
  {
    RebuildIdempotent(c.(pivotLocation := p));
  }

  /** Setting the pivot twice is the same as setting it once to the later value. */
  lemma SetPivotLocationLastWins(c: ShapeComponent, p: PivotLocation, q: PivotLocation)
    ensures SetPivotLocation(SetPivotLocation(c, p).component, q) == SetPivotLocation(c, q)
  {
    var c1 := SetPivotLocation(c, p).component;
    assert c1.(pivotLocation := q).(properties := c.properties, edited := c.edited) == c.(pivotLocation := q);
  }

  /**
   The shape box `SetShape` installs for a newly assigned shape: a flat
   variant loses its Y extent and Y offset; a solid variant coming back from
   a flat box under a first-vertex pivot regains the shape's height, raised
   by half of it; any other box is kept.
   */
  function AdjustedBox(s: Shape, pivot: PivotLocation): (b: Bounds)
    ensures IsFlatKind(s.kind) ==>
      && b.center == s.shapeBox.center.(y := 0.0)
      && b.size == s.shapeBox.size.(y := 0.0)
    ensures !IsFlatKind(s.kind) && pivot == FirstVertex && s.shapeBox.size.y == 0.0 && s.size.y != 0.0 ==>
      && b.center == s.shapeBox.center.(y := s.shapeBox.center.y + s.size.y / 2.0)
      && b.size == s.shapeBox.size.(y := s.size.y)
    ensures !IsFlatKind(s.kind) && !(pivot == FirstVertex && s.shapeBox.size.y == 0.0 && s.size.y != 0.0) ==>
      b == s.shapeBox
  {
    var box := s.shapeBox;
    if IsFlatKind(s.kind) then
      Bounds(box.center.(y := 0.0), box.size.(y := 0.0))
    else if pivot == FirstVertex && box.size.y == 0.0 && s.size.y != 0.0 then
      Bounds(box.center.(y := box.center.y + s.size.y / 2.0), box.size.(y := s.size.y))
    else
      box
  }

  /** `SetShape`: install the new shape with its adjusted box, reset the pivot, rebuild. */
  function SetShape(c: ShapeComponent, s: Shape): (r: Step)
    ensures r.component.shape == s.(shapeBox := AdjustedBox(s, c.pivotLocation))
    ensures IsFlatKind(s.kind) ==>
      r.component.shape.shapeBox.size.y == 0.0 && r.component.shape.shapeBox.center.y == 0.0
    ensures r.component.pivotLocation == c.pivotLocation
    ensures SizeOf(r.component.properties) == s.size
    ensures r.component.transform == c.transform
    ensures |r.meshOps| > 0 && r.meshOps[0] == ResetPivot
    ensures IsHidden(c) ==> r.meshOps == [ResetPivot] && r.component.edited == c.edited
    ensures !IsHidden(c) ==>
      && !r.component.edited
      && |r.meshOps| == 4
      && r.meshOps[1] == RebuildMesh(s.size, s.rotation)
      && r.meshOps[2] == FitToSize(FitBounds(AdjustedBox(s, c.pivotLocation)), s.size)
      && r.meshOps[3] == UpdatePivot(c.pivotLocation)
  {
    var r := Rebuild(c.(shape := s.(shapeBox := AdjustedBox(s, c.pivotLocation))));
    Step(r.component, [ResetPivot] + r.meshOps)
  }

  /**
   Going flat and back: a flat box re-expanded by a solid shape of positive
   height under a first-vertex pivot sits on the flat box's footprint (its
   bottom face is at the flat box's height) and spans the shape's height.
   */
  lemma SolidFromFlatSitsOnFootprint(c: ShapeComponent, flat: Shape, solid: Shape)
    requires IsFlatKind(flat.kind) && !IsFlatKind(solid.kind)
    requires c.pivotLocation == FirstVertex
    requires solid.shapeBox == SetShape(c, flat).component.shape.shapeBox
    requires solid.size.y > 0.0
    ensures var box := SetShape(SetShape(c, flat).component, solid).component.shape.shapeBox;
      && box.center.y - box.size.y / 2.0 == 0.0
      && box.size.y == solid.size.y
      && box.center.x == flat.shapeBox.center.x && box.center.z == flat.shapeBox.center.z
      && box.size.x == flat.shapeBox.size.x && box.size.z == flat.shapeBox.size.z
  {
    var c1 := SetShape(c, flat).component;
    assert c1.pivotLocation == FirstVertex;
    assert solid.shapeBox.size.y == 0.0 && solid.shapeBox.center.y == 0.0;
  }

  /**
   `RotateInsideBounds`: reset the pivot, left-multiply the rotation by the
   delta, rebuild. Size and shape box are untouched.
   */
  function RotateInsideBounds(c: ShapeComponent, delta: Quat): (r: Step)
    ensures r.component.shape.rotation == Mul(delta, c.shape.rotation)
    ensures r.component.shape.size == c.shape.size
    ensures r.component.shape.shapeBox == c.shape.shapeBox
    ensures r.component.shape.kind == c.shape.kind
    ensures r.component.transform == c.transform
    ensures |r.meshOps| > 0 && r.meshOps[0] == ResetPivot
    ensures r.component.pivotLocation == c.pivotLocation
    ensures SizeOf(r.component.properties) == c.shape.size
    ensures IsHidden(c) ==> r.meshOps == [ResetPivot] && r.component.edited == c.edited
    ensures !IsHidden(c) ==>
      && !r.component.edited
      && |r.meshOps| == 4
      && r.meshOps[1] == RebuildMesh(c.shape.size, Mul(delta, c.shape.rotation))
      && r.meshOps[2] == FitToSize(FitBounds(c.shape.shapeBox), c.shape.size)
      && r.meshOps[3] == UpdatePivot(c.pivotLocation)
  {
    var r := Rebuild(c.(shape := c.shape.(rotation := Mul(delta, c.shape.rotation))));
    Step(r.component, [ResetPivot] + r.meshOps)
  }

  /** Rotating by the identity leaves the shape's rotation as it was. */
  lemma RotateByIdentity(c: ShapeComponent)
    ensures RotateInsideBounds(c, Identity).component.shape == c.shape
  {
    MulIdentity(c.shape.rotation);
  }

  /** Two successive rotations stack: the later delta is applied on the left. */
  lemma RotateTwice(c: ShapeComponent, d1: Quat, d2: Quat)
    ensures RotateInsideBounds(RotateInsideBounds(c, d1).component, d2).component.shape
         == c.shape.(rotation := Mul(d2, Mul(d1, c.shape.rotation)))
  {
  }
}

=== FILE: size_snap.dfy ===
/**
 The snap bookkeeping of one size-drag frame. The drag delta of the frame is
 combined with the remainder carried from the previous frame, the combination
 is snapped to the grid by the host's snapping routine (a parameter here,
 `snap(value, increment)`), the snapped part is applied to the size and the
 unsnapped rest is carried to the next frame.

 Two versions are given. `SnapCarryAsWritten` is the editor's arithmetic: the
 carried remainder is added to the raw delta and the sum is then multiplied
 by the modifier (2 while alt is held). Since the remainder was computed in
 already-multiplied units, it is doubled once more while alt is held, so a
 drag with alt held applies more than the user dragged. `SnapCarry` adds the
 remainder after the multiplication, and over any sequence of frames it
 applies exactly what was dragged. The controller follows the editor's
 arithmetic; the two agree whenever alt is not held.
 */
module SizeSnap {
  import opened Geometry

  /** One frame's outcome: the snapped offset applied to the size and the remainder carried on. */
  datatype Carry = Carry(offset: Vec3, leftover: Vec3)

  /** The inputs of one size-drag frame: raw delta, whether alt is held, and snap increment. */
  datatype DragFrame = DragFrame(delta: Vec3, alt: bool, increment: Vec3)

  /** The drag modifier: 2 exactly when alt is held, otherwise 1. */
  function Modifier(alt: bool): (m: real)
    ensures m == 2.0 <==> alt
    ensures m == 1.0 <==> !alt
  {
    if alt then 2.0 else 1.0
  }

  /** `modifier * v`, written without a symbolic multiplication. */
  function Modified(alt: bool, v: Vec3): Vec3 {
    if alt then Add(v, v) else v
  }

  /** `Modified` is the vector scaled by the modifier. */
  lemma ModifiedIsScaled(alt: bool, v: Vec3)
    ensures Modified(alt, v) == Times(Modifier(alt), v)
  {
  }

  /** One frame as the editor writes it: `Snap(modifier * (delta + leftover))`, rest carried. */
  function SnapCarryAsWritten(snap: (Vec3, Vec3) -> Vec3, leftover: Vec3, delta: Vec3,
                              alt: bool, increment: Vec3): (r: Carry)
    ensures r.offset == snap(Modified(alt, Add(delta, leftover)), increment)
    ensures Add(r.offset, r.leftover) == Modified(alt, Add(delta, leftover))
  {
    var requested := Modified(alt, Add(delta, leftover));
    var offset := snap(requested, increment);
    Carry(offset, Sub(requested, offset))
  }

  /** One frame with the remainder added after the modifier: `Snap(modifier * delta + leftover)`. */
  function SnapCarry(snap: (Vec3, Vec3) -> Vec3, leftover: Vec3, delta: Vec3,
                     alt: bool, increment: Vec3): (r: Carry)
    ensures r.offset == snap(Add(Modified(alt, delta), leftover), increment)
    ensures Add(r.offset, r.leftover) == Add(Modified(alt, delta), leftover)
  {
    var requested := Add(Modified(alt, delta), leftover);
    var offset := snap(requested, increment);
    Carry(offset, Sub(requested, offset))
  }

  /** Without the alt modifier both versions compute the same frame. */
  lemma AsWrittenAgreesWithoutAlt(snap: (Vec3, Vec3) -> Vec3, leftover: Vec3, delta: Vec3, increment: Vec3)
    ensures SnapCarryAsWritten(snap, leftover, delta, false, increment)
         == SnapCarry(snap, leftover, delta, false, increment)
  {
  }

  /**
   With alt held, the editor's frame accounts for the carried remainder twice:
   what it applies plus what it carries exceeds the doubled delta plus the
   remainder by the remainder itself.
   */
  lemma AsWrittenDoublesLeftover(snap: (Vec3, Vec3) -> Vec3, leftover: Vec3, delta: Vec3, increment: Vec3)
    requires leftover != Zero
    ensures var r := SnapCarryAsWritten(snap, leftover, delta, true, increment);
      && Add(r.offset, r.leftover) == Add(Add(Modified(true, delta), leftover), leftover)
      && Add(r.offset, r.leftover) != Add(Modified(true, delta), leftover)
  {
  }

  /**
   With snapping off the increment is zero; when the snapping routine is the
   identity on a zero increment, nothing is carried.
   */
  lemma SnapOffLeavesNoLeftover(snap: (Vec3, Vec3) -> Vec3, leftover: Vec3, delta: Vec3, alt: bool)
    requires forall v :: snap(v, Zero) == v
    ensures SnapCarry(snap, leftover, delta, alt, Zero).leftover == Zero
    ensures SnapCarryAsWritten(snap, leftover, delta, alt, Zero).leftover == Zero
  {
  }

  /** Total offset applied by a run of frames (in `offset`) and the remainder left at its end. */
  function Run(snap: (Vec3, Vec3) -> Vec3, leftover: Vec3, frames: seq<DragFrame>): Carry
    decreases |frames|
  {
    if |frames| == 0 then
      Carry(Zero, leftover)
    else
      var f := frames[0];
      var c := SnapCarry(snap, leftover, f.delta, f.alt, f.increment);
      var rest := Run(snap, c.leftover, frames[1..]);
      Carry(Add(c.offset, rest.offset), rest.leftover)
  }

  /** `Run` with the editor's frame arithmetic. */
  function RunAsWritten(snap: (Vec3, Vec3) -> Vec3, leftover: Vec3, frames: seq<DragFrame>): Carry
    decreases |frames|
  {
    if |frames| == 0 then
      Carry(Zero, leftover)
    else
      var f := frames[0];
      var c := SnapCarryAsWritten(snap, leftover, f.delta, f.alt, f.increment);
      var rest := RunAsWritten(snap, c.leftover, frames[1..]);
      Carry(Add(c.offset, rest.offset), rest.leftover)
  }

  /** What a run of frames asks for: the sum of the modified deltas. */
  function Requested(frames: seq<DragFrame>): Vec3
    decreases |frames|
  {
    if |frames| == 0 then Zero
    else Add(Modified(frames[0].alt, frames[0].delta), Requested(frames[1..]))
  }

  /**
   Snap remainder conservation: over any run of frames, whatever the snapping
   routine returns, the offsets applied plus the final remainder equal the
   requested deltas plus the initial remainder. No drag input is lost or
   duplicated.
   */
  lemma {:induction false} RunConserves(snap: (Vec3, Vec3) -> Vec3, leftover: Vec3, frames: seq<DragFrame>)
    ensures var r := Run(snap, leftover, frames);
      Add(r.offset, r.leftover) == Add(Requested(frames), leftover)
    decreases |frames|
  {
    if |frames| > 0 {
      var f := frames[0];
      var c := SnapCarry(snap, leftover, f.delta, f.alt, f.increment);
      RunConserves(snap, c.leftover, frames[1..]);
    }
  }

  /**
   Over two frames with alt held, the editor's arithmetic applies and carries
   the requested deltas plus the remainder left by the first frame: that
   remainder is counted a second time.
   */
  lemma {:induction false} AsWrittenTwoFramesWithAlt(snap: (Vec3, Vec3) -> Vec3, d: Vec3, g: Vec3)
    ensures var f := DragFrame(d, true, g);
      var first := SnapCarryAsWritten(snap, Zero, d, true, g);
      var r := RunAsWritten(snap, Zero, [f, f]);
      Add(r.offset, r.leftover) == Add(Requested([f, f]), first.leftover)
  {
    var f := DragFrame(d, true, g);
    var c1 := SnapCarryAsWritten(snap, Zero, d, true, g);
    var c2 := SnapCarryAsWritten(snap, c1.leftover, d, true, g);
    assert [f, f][1..] == [f];
    assert [f][1..] == [];
    assert RunAsWritten(snap, c1.leftover, [f]) == Carry(Add(c2.offset, Zero), c2.leftover);
    assert RunAsWritten(snap, Zero, [f, f]) == Carry(Add(c1.offset, Add(c2.offset, Zero)), c2.leftover);
    assert Requested([f]) == Add(Modified(true, d), Zero);
    assert Requested([f, f]) == Add(Modified(true, d), Requested([f]));
  }

  /** The doubled drag of the worked example below. */
  lemma DoubledDrag()
    ensures Modified(true, Vec3(0.0, 0.3, 0.0)) == Vec3(0.0, 0.6, 0.0)
  {
  }

  /**
   The editor's arithmetic breaks conservation: two frames each dragging 0.3
   along Y with alt held, with a snapping routine that rounds 0.6 to 0.5 on
   the given grid, apply and carry 0.1 more along Y than was requested.
   */
  lemma AsWrittenOverApplies(snap: (Vec3, Vec3) -> Vec3, g: Vec3)
    requires snap(Vec3(0.0, 0.6, 0.0), g) == Vec3(0.0, 0.5, 0.0)
    ensures var f := DragFrame(Vec3(0.0, 0.3, 0.0), true, g);
      var r := RunAsWritten(snap, Zero, [f, f]);
      Add(r.offset, r.leftover) == Add(Requested([f, f]), Vec3(0.0, 0.1, 0.0))
  {
    AsWrittenTwoFramesWithAlt(snap, Vec3(0.0, 0.3, 0.0), g);
    FirstAltFrameLeftover(snap, g);
  }

  /** The first frame of the worked example carries 0.1 along Y. */
  lemma FirstAltFrameLeftover(snap: (Vec3, Vec3) -> Vec3, g: Vec3)
    requires snap(Vec3(0.0, 0.6, 0.0), g) == Vec3(0.0, 0.5, 0.0)
    ensures SnapCarryAsWritten(snap, Zero, Vec3(0.0, 0.3, 0.0), true, g).leftover == Vec3(0.0, 0.1, 0.0)
  {
    var d := Vec3(0.0, 0.3, 0.0);
    assert Add(d, Zero) == d;
    DoubledDrag();
  }
}
